=== FILE: README.md ===
# lps core in Dafny

lps (`main.c`) is a terminal front end for Arch Linux upgrades. It reads a "keep" list of
package names from its config file. It walks the local package database from every kept
package to collect that package's dependencies, transitively, into an open-addressing hash
set of names. Every installed package with a newer version that is not protected by that
set becomes an upgrade candidate. The candidates are sorted by installed size, largest
first, and shown in a scrollable list. There the user ticks packages with Space or Enter
and moves with `j`, `k`, Ctrl-U and Ctrl-D, while a side panel word-wraps the highlighted
package's description. At exit the keep list is written to the file again; the file is open
for appending, so the list lands after the old contents.

The model has one module per part of that program:

| file | module | what it models |
|---|---|---|
| `options.dfy` | `Options` | an `Option` type |
| `cstrings.dfy` | `CStrings` | NUL-terminated buffers: `strlen`, the 200-character name buffer |
| `pkgnames.dfy` | `PkgNames` | `pkg_name_t`, `pkg_name_eql`, the djb2 `hash` modulo 2^64 |
| `namelists.dfy` | `NameLists` | `pkg_name_list_t` and `pkg_name_new` (a growable array, capacity doubling) |
| `namesets.dfy` | `NameSets` | `name_set_t`: `name_set_new`, `linear_probe_insert`, `name_set_add_cpy`, `name_set_has` and their `_cstr` forms |
| `closure.dfy` | `Closure` | `name_set_add_dependencies` and the keep-list loop that starts it |
| `keeplist.dfy` | `KeepList` | reading the keep file with `fgets`, seeding the defaults, writing it back |
| `upgrades.dfy` | `Upgrades` | `pkg_state_list_t`, `compare_pkg_states`, the candidate filter and the `qsort` call |
| `wrap.dfy` | `DescriptionWrap` | `read_word` and the description word-wrap loop |
| `browse.dfy` | `Browse` | the main input loop: resize clamp, reads of the list, key handling |

Each part that updates state in place is a class or a method over an `array`:
- the name set's slot array, with the rehash;
- the two growable lists;
- the `read_word` buffer;
- the `is_selected` flags of the upgrade list.

Each of these methods is proved equal to a function on values. The properties are then proved
about those functions:
- the name set holds exactly the texts stored into it, and rehashing never loses one;
- `name_set_has` finds a name exactly when its text is held;
- when no insertion was lost, the dependency set is the least dependency-closed set containing
  the found keep names;
- writing the keep list to an empty file and reading it back gives the same names, for names
  shorter than 199 characters without a newline;
- the candidates are exactly the unprotected packages with a new version;
- the sort yields a size-descending permutation;
- in the description panel, a word stays on the cursor's row exactly when it fits before the
  right edge, and otherwise wraps to the middle column of the next row;
- `j` and `k` move the highlighted index by exactly one and keep every read inside the list.

The value functions that only compute (`ProbeInsert`, `Rehash`, `Layout`, `Candidates`,
`MoveDown`, `CtrlU`, `CtrlD` and the like) have no row of their own in the table below; they
are reached through the rows of the methods and lemmas about them.

The C code has several defects. Each is modelled as written, and a concrete input shows its
effect:
- insertion into the name set does not wrap at the end of the array, so a name can be lost:
  adding "b" then "j" to a new set (both hash to slot 7 of 8) loses "j". In the dependency walk
  a lost name stays unprotected, so that package is offered as an upgrade candidate when it
  has a newer version. Every later meeting adds it again and counts it in `size`; it is walked
  again at each meeting, until a meeting after the table has grown stores it;
- the keep file is opened with "a+", so each run appends the list after the old contents and a
  list the program wrote itself is read back twice over on the next run;
- `read_word` drops one character from a word that fills its buffer;
- a 199-character keep name is split in two on the next read;
- from a healthy state, Space/Enter makes the next turn read outside the list exactly when the
  highlighted item is the last one, and Ctrl-D does so exactly when the list is shorter than
  the screen;
- growing the terminal does not pull the list back.

Behaviour worth noting:
- `compare_pkg_states` has no tie-break by name, so equal sizes are left in the order the sort gives them;
- Ctrl-D and Ctrl-U apply no clamp beyond the one in the code;
- the resize clamp limits only `selection_index`, to `tb_height() - 1`.

## Model

| member | source | states |
|---|---|---|
| `CStrings.CLen` | main.c:474 | `strlen` is the index of the first NUL, or the buffer length when there is none; no NUL comes before it |
| `CStrings.CStrOfTerminated` | main.c:270-272 | a buffer holding a NUL-free text followed by a NUL reads back as exactly that text |
| `PkgNames.WellFormedKey` | main.c:103-107 | when `size` is strlen + 1, the name's text is its first `size - 1` characters |
| `PkgNames.MakeName` | main.c:270-272 | `snprintf` then `size = strlen + 1` builds a well-formed name whose text is the string and whose size is its length + 1 |
| `PkgNames.PkgNameEql` | main.c:278-294 | returns true iff the sizes are equal and the first `size` bytes agree |
| `PkgNames.NameEqIsEquivalence` | main.c:278-294 | `pkg_name_eql` is reflexive, symmetric and transitive |
| `PkgNames.NameEqIsKeyEq` | main.c:278-294 | on well-formed names `pkg_name_eql` holds exactly when the texts are equal |
| `PkgNames.WriteText` | main.c:488-489 | writing a text into a name's buffer makes that the text and leaves `size` unchanged |
| `PkgNames.StaleDefaultNames` | main.c:486-490 | "pacman" and "glibc" keep size 1: "pacman" is not well formed, compares equal to any size-1 name starting with 'p' and unequal to a properly built "pacman", while both texts read correctly |
| `PkgNames.Hash` | main.c:204-215 | the loop computes djb2 (start 5381, times 33 plus each character, modulo 2^64) of the text up to the first NUL |
| `NameLists.PkgNameList.constructor` | main.c:116-123 | a new list is empty with the requested capacity |
| `NameLists.PkgNameList.NewName` | main.c:126-141 | appends an empty name of size 1 and returns its index; the capacity doubles exactly when the list was full |
| `NameLists.PkgNameList.Set` | main.c:513-514 | writing through the returned slot replaces that one name and no other |
| `NameLists.PkgNameList.DropLast` | main.c:470 | `size--` forgets exactly the last name |
| `NameLists.PkgNameList.Get` | main.c:508 | reads the name at an index of the list |
| `NameSets.FirstFree` | main.c:231-240 | the probe stops at the first vacant slot at or after its start, every slot it passes is taken, and it finds none when all slots to the end are taken |
| `NameSets.Resized` | main.c:245-262 | the table doubles exactly when the incremented size reaches half the capacity |
| `NameSets.KeysOfMembers` | main.c:188-200 | a text is held exactly when some taken slot holds a name with that text |
| `NameSets.StoresIffVacancyAfterHome` | main.c:226-241 | an insertion stores the name exactly when some slot between its home and the end of the array is vacant |
| `NameSets.ProbeInsertFinds` | main.c:226-241 | after a stored insertion the lookup test finds the name; an insertion that finds no slot leaves the table unchanged |
| `NameSets.ProbeInsertCounts` | main.c:226-241 | an insertion adds one taken slot and the name's text when it stores, and nothing otherwise |
| `NameSets.ProbeInsertKeys` | main.c:233-238 | filling a vacant slot adds exactly the new name's text |
| `NameSets.ProbeInsertKeepsInvariants` | main.c:226-241 | insertion keeps every probe chain intact and every recorded hash correct; it keeps the texts distinct when the new text is absent, and repeats a text when an already-held one is stored again |
| `NameSets.LostAtEndOfTable` | main.c:231 | after "b" is added to a new set and the table doubles to 8, "j" (home slot 7, like "b") is not stored although seven slots are free, and the wrapping lookup does not find it |
| `NameSets.LostInsertionExample` | main.c:243-275 | running `name_set_new`, then adding "b" and "j", leaves capacity 8 and `name_set_has_cstr("j")` false |
| `NameSets.KeptAThenB` | main.c:226-262 | "A" finds a slot in a new set, and "B" finds one in the table doubled after "A" |
| `NameSets.KeptInsertionExample` | main.c:243-275 | running `name_set_new`, then adding "A" and "B", leaves capacity 8, both texts held, none repeated and no insertion lost |
| `NameSets.RehashStep` | main.c:253-258 | during the rehash each old taken slot still finds a vacancy, and taken new slots stay in the first `i` or the `[c, c + i)` slots |
| `NameSets.RehashPlaced` | main.c:252-259 | after `i` old slots, the taken new slots lie in `[0, i)` or `[c, c + i)` |
| `NameSets.RehashCounts` | main.c:252-259 | the rehash keeps the number of taken slots and the set of texts: no entry is lost |
| `NameSets.RehashInvariants` | main.c:252-259 | the rehash keeps probe chains intact and recorded hashes correct |
| `NameSets.RehashUnique` | main.c:252-259 | the rehash of a table without repeated texts has none |
| `NameSets.UniqueCounts` | main.c:198 | without repeated texts, the number of taken slots equals the number of texts |
| `NameSets.RehashAll` | main.c:247-262 | the full rehash keeps chains, hashes, the slot count, the texts and their distinctness |
| `NameSets.FindsIffKey` | main.c:296-317 | on a table with correct hashes, the lookup test finds a well-formed name exactly when its text is held |
| `NameSets.ProbeMissMeansAbsent` | main.c:301-316 | a wrapping probe that reaches a vacant slot without a match proves that no slot matches |
| `NameSets.ProbeBounded` | main.c:301-314 | while a slot is vacant, the wrapping probe meets fewer taken slots than the capacity, so it ends |
| `NameSets.LinearProbeInsert` | main.c:226-241 | the in-place loop leaves the array equal to the value-level insertion |
| `NameSets.Rehashed` | main.c:249-259 | the in-place rehash loop builds a fresh array equal to the value-level rehash |
| `NameSets.ProbeLookup` | main.c:299-316 | the wrapping probe loop returns true exactly when some taken slot matches the hash and the name |
| `NameSets.NameSet.CountsKeys` | main.c:245 | without a repeated text, `size` is the number of texts plus the lost insertions |
| `NameSets.NameSet.constructor` | main.c:217-224 | a new set is empty with capacity 4 |
| `NameSets.NameSet.AddCpy` | main.c:243-266 | `size` grows by one; the table doubles exactly when the new size reaches half the capacity; the name is probed into the resized table; the text is added unless the probe found no slot; a text already held becomes a duplicate; afterwards `size < capacity / 2` and the capacity is a power of two of at least 4 |
| `NameSets.NameSet.ProbeIn` | main.c:264-265 | the insertion step adds one taken slot and the text when it stores, and otherwise counts a lost insertion |
| `NameSets.NameSet.Grow` | main.c:247-262 | doubling the capacity keeps every text, the slot count and the counters |
| `NameSets.NameSet.AddCpyCStr` | main.c:268-275 | as `AddCpy` for the name built from the string: `size` grows by one, the capacity doubles exactly when the new size reaches half of it, the array is the value-level insertion into the resized table, `stored` says whether the probe found a slot, and the text is added unless it did not |
| `NameSets.NameSet.Has` | main.c:296-317 | returns true iff some taken slot holds the name's hash and an equal name |
| `NameSets.NameSet.HasCStr` | main.c:319-326 | returns true exactly when the text is held |
| `Closure.WalkIdle` | main.c:333 | a call that adds nothing is a walk |
| `Closure.WalkThen` | main.c:341-346 | two walks in a row, the second from one of the roots, are one walk, and what is left to visit does not grow |
| `Closure.WalkVisit` | main.c:332-347 | adding a name and then walking its dependency list is a walk from that name, and holds the name when nothing was lost |
| `Closure.Visit` | main.c:332-335 | a name is added only when the database has it and the set lacks it; its dependencies are walked after it is added |
| `Closure.AddDependencies` | main.c:328-349 | adds only database names, all within every dependency-closed set holding the start; when no insertion was lost it adds the start, leaves every added name's known dependencies present and stores no text twice |
| `Closure.AddEach` | main.c:337-347 | walking each name of a dependency list in order; when nothing was lost every known dependency ends up in the set |
| `Closure.UnfoundMembers` | main.c:511-515 | a name is unfound exactly when it is a keep name whose text the database lacks; there are no more unfound names than keep names |
| `Closure.UnfoundStep` | main.c:511-515 | one more keep name appends it to the unfound list exactly when the database lacks it |
| `Closure.TextsMembers` | main.c:506-509 | a text is among the keep texts exactly when some keep name has it |
| `Closure.TextsStep` | main.c:506-509 | one more keep name adds exactly its text |
| `Closure.TextsPrefix` | main.c:506 | the texts of a prefix of the keep list are among all its texts |
| `Closure.CollectKeepDependencies` | main.c:505-522 | the unfound list is the keep names the database lacks, in order; the set holds only database names inside every closed set holding the found keep names; when no insertion was lost it holds every found keep name, is closed, holds no text twice and counts each text once |
| `Closure.KeepAll` | main.c:506-522 | the loop over every keep name builds the unfound list and walks from every found name |
| `Closure.KeepStep` | main.c:507-521 | one pass of the loop extends the unfound list by the current name or walks from it |
| `Closure.KeepOne` | main.c:508-521 | an unknown name is appended to `unfound`; a known one starts a walk that then holds it when nothing was lost |
| `Closure.RememberUnfound` | main.c:511-515 | appends the name to `unfound` exactly when the database lacks it |
| `Closure.WalkFound` | main.c:516-520 | walks from a name the database has; the walk holds it when nothing was lost |
| `Closure.KeepResult` | main.c:505-522 | a walk from the empty set adds only database names inside every closed set holding the roots, and when nothing was lost the result is closed and holds no text twice |
| `Closure.CyclicWalk` | main.c:328-349 | on a cyclic, self-referencing graph with an unknown dependency, the only closed result from "A" is {"A", "B"} |
| `KeepList.ChunkLen` | main.c:467 | one `fgets` takes at least one character, at most 199, up to and including the first newline |
| `KeepList.ChunksSplit` | main.c:464-483 | the pieces `fgets` cuts the file into are non-empty, fit the buffer and join back into the file text |
| `KeepList.LineName` | main.c:474-480 | a line becomes a well-formed name whose text plus the stripped newline, if there was one, is the line |
| `KeepList.DefaultNames` | main.c:486-490 | the defaults are "pacman" then "glibc", each with the stale size 1 |
| `KeepList.ReadKeepNames` | main.c:463-490 | the list read from the file is the names its lines give, or the two defaults when the file is empty |
| `KeepList.ReadLines` | main.c:464-483 | the reading loop collects one name per `fgets` piece and reads nothing exactly when the file is empty |
| `KeepList.ReadLine` | main.c:466-480 | one round appends the next line's name, or gives back its slot at end of file |
| `KeepList.SeedDefaults` | main.c:486-490 | seeding an empty list leaves exactly the defaults |
| `KeepList.ReadNamesShape` | main.c:467-480 | every name read is well formed, fits the buffer and holds no newline; there is one per piece |
| `KeepList.KeepNamesUsable` | main.c:463-490 | the keep list is never empty and its texts fit a name buffer |
| `KeepList.OneLine` | main.c:467 | a text shorter than 199 characters, without newline, followed by a newline, is one `fgets` piece |
| `KeepList.WriteThenRead` | main.c:761-766 | reading back what was written gives the same texts in the same order, when each is shorter than 199 characters and holds no newline |
| `KeepList.KeepListRoundTrip` | main.c:758-768 | the text a run writes for a non-empty list is read by the next run as that list, when the file was empty before the write |
| `KeepList.KeepFileText` | main.c:761-766 | the written text has no NUL, is empty exactly when the list is, and otherwise ends with a newline |
| `KeepList.KeepFileTextAppend` | main.c:761-766 | writing two lists in turn writes the two texts one after the other |
| `KeepList.KeepFileTextOfLines` | main.c:763-766 | the written text depends only on the names' texts |
| `KeepList.LinesAppend` | main.c:463-483 | the texts of two joined lists are the two lists of texts joined |
| `KeepList.WriteKeepFile` | main.c:758-768 | the write-back loop on a file opened with "a+" leaves the old contents followed by the list's text |
| `KeepList.KeepFileDoubles` | main.c:455 | a file holding a list the program wrote is, after one more run, the text of that list twice, and the next run reads every name twice |
| `KeepList.DefaultsDoubleOnSecondRun` | main.c:455-490 | from an empty file, the third run reads "pacman", "glibc", "pacman", "glibc" |
| `KeepList.DefaultsPersist` | main.c:486-490 | the seeded defaults, once written, are read back as "pacman", "glibc" |
| `KeepList.LongNameSplits` | main.c:467 | a name of exactly 199 characters is read back as itself followed by an empty name |
| `KeepList.NewlineAlone` | main.c:474-480 | a line that is only a newline becomes the empty name |
| `KeepList.FullLine` | main.c:467 | `fgets` stops a 199-character line before its newline |
| `Upgrades.PkgStateList.constructor` | main.c:42-49 | a new list is empty with the requested capacity |
| `Upgrades.PkgStateList.AddPkg` | main.c:29-40 | appends the package unselected and leaves earlier entries unchanged; the capacity doubles exactly when the list was full |
| `Upgrades.ComparePkgStates` | main.c:72-81 | negative, zero or positive exactly when the first installed size is larger than, equal to or smaller than the second |
| `Upgrades.CompareIsTotalPreorder` | main.c:72-81 | the comparator is total, antisymmetric in sign and transitive |
| `Upgrades.SortedIsComparatorOrder` | main.c:72-81 | size-descending order is exactly the order the comparator asks for |
| `Upgrades.InsertAtMost` | main.c:568 | inserting keeps an upper bound on the sizes |
| `Upgrades.InsertPermutes` | main.c:568 | inserting adds exactly the element to the multiset |
| `Upgrades.InsertSorted` | main.c:568 | inserting into a size-descending list keeps it size-descending |
| `Upgrades.SortBySizeSpecCorrect` | main.c:568 | the specification ordering is size-descending and a permutation of its input |
| `Upgrades.SortBySize` | main.c:568 | the first `size` entries are rearranged in place into a size-descending permutation of themselves |
| `Upgrades.CollectCandidates` | main.c:545-563 | the list holds, in order, the unselected new version of every installed package that has one and whose name the dependency set lacks |
| `Upgrades.CandidatesSound` | main.c:546-563 | every candidate is unselected and is the new version of some installed package whose name is not protected |
| `Upgrades.CandidatesComplete` | main.c:546-563 | every installed package with a new version and an unprotected name contributes that version |
| `Upgrades.ProtectedExcluded` | main.c:557 | there are at most as many candidates as installed packages, and none when every installed package is protected |
| `DescriptionWrap.StopAt` | main.c:159-168 | the word ends at the first space or NUL at or after the pointer |
| `DescriptionWrap.ReadWordSpec` | main.c:150-183 | the count is between 1 and the capacity; the text is a slice of the string, one shorter than the count, with no space or NUL; the pointer advances whenever it was not on the NUL |
| `DescriptionWrap.ReadWord` | main.c:150-183 | the in-place loop returns that count and pointer and leaves the text, NUL-terminated, in the buffer |
| `DescriptionWrap.ShortWordRoundTrip` | main.c:156-168 | a word that fits comes back whole, and the pointer passes it and the space that ended it |
| `DescriptionWrap.LongWordLosesOne` | main.c:171-180 | a word of at least `capacity` characters moves the pointer past `capacity` characters but keeps only `capacity - 1`; the one lost is an ordinary character |
| `DescriptionWrap.LostCharacterExample` | main.c:150-183 | with a 3-character buffer "abcd" is read as "ab" then "d": the "c" is lost |
| `DescriptionWrap.WrapCursor` | main.c:639-643 | the cursor stays at its column and row exactly when the word fits before the right edge, and otherwise moves to the middle column of the next row; a word no wider than the right half always ends inside the screen |
| `DescriptionWrap.LayoutStep` | main.c:634-647 | one round of the panel loop places the next word and continues from the advanced pointer and cursor |
| `DescriptionWrap.LayoutDescription` | main.c:631-647 | the panel loop writes exactly the words the layout function places, in order |
| `DescriptionWrap.PlaceWord` | main.c:636-646 | reads one word through an 80-character buffer, wraps the cursor if needed and advances it by the count |
| `DescriptionWrap.LayoutRows` | main.c:639-646 | consecutive words either share a row one column apart or the second starts the next row at the middle |
| `DescriptionWrap.LayoutFits` | main.c:632-647 | when the right half is at least 80 columns wide, every word lies inside the right half |
| `Browse.Clamp` | main.c:592-597 | the selection never passes the bottom line and changes only when it was on or below it |
| `Browse.ViewHeight` | main.c:603 | the view height is the smaller of the screen height and the list size |
| `Browse.Toggle` | main.c:670 | flips the flag of exactly the highlighted item and leaves every other item unchanged |
| `Browse.Step` | main.c:588-752 | one pass reads outside the list exactly when the clamped base and selection are out of range; it quits only on 'q'; it changes no package and at most the flag of the highlighted item |
| `Browse.SpecialKey` | main.c:662-714 | special keys always go on; only Space and Enter change the items, and then only the highlighted item's flag |
| `Browse.CharKey` | main.c:716-748 | character keys never change the items, and the loop stops exactly on 'q' |
| `Browse.Run` | main.c:590-753 | the loop never changes the packages or their order, only their flags |
| `Browse.StartIsGood` | main.c:588-589 | a non-empty list on a screen at least one row high starts healthy |
| `Browse.GoodReadsInRange` | main.c:593-606 | a healthy state is not clamped and reads only inside the list |
| `Browse.JMovesDownByOne` | main.c:722-734 | 'j' moves `base_index + selection_index` down by exactly one unless on the last item, and keeps the state healthy |
| `Browse.KMovesUpByOne` | main.c:735-747 | 'k' moves the index up by exactly one unless on the first item, and keeps the state healthy |
| `Browse.JScrollsAtBottom` | main.c:722-734 | ten items, five rows, highlight on row 4: 'j' gives base 1, selection 4 |
| `Browse.SpaceFlipsExactlyOne` | main.c:666-684 | Space/Enter flips exactly the highlighted item's flag, then moves down without the last-item check |
| `Browse.EnterOnLastItemOverruns` | main.c:675-682 | Enter on the last of two items scrolls to base 1, and the next pass reads outside the list |
| `Browse.CtrlDOnShortListOverruns` | main.c:704-712 | Ctrl-D with three items on ten rows gives base -7, selection 5, and the next pass reads outside the list |
| `Browse.SpaceOverrunsIffLast` | main.c:662-682 | from a healthy state, Space/Enter goes on; the next pass at the same height reads outside the list exactly when the highlighted item was the last, and otherwise the state stays healthy |
| `Browse.CtrlDOverrunsIffShort` | main.c:704-713 | from a healthy state, Ctrl-D goes on and keeps the items; the next pass at the same height reads outside the list exactly when the list is shorter than the screen |
| `Browse.ResizeOverreads` | main.c:592-606 | growing the screen from five to eight rows with base 5 of ten items makes the visible rows run past the end |
| `Browse.CtrlUStaysGood` | main.c:685-703 | Ctrl-U keeps a healthy state healthy and never moves the index down |
| `Browse.NavigationStep` | main.c:588-752 | one turn of `j`, `k`, Ctrl-U, another key, a non-key event or a poll failure at a fixed height never reads outside the list, leaves the flags alone, and keeps the state healthy when it goes on |
| `Browse.NavigationNeverOverruns` | main.c:590-753 | any number of such turns never reads outside the list and leaves every flag unchanged |
| `Browse.BrowseLoop` | main.c:586-753 | the loop over the array ends as the value-level run, with the array's flags equal to the run's items |
| `Browse.Turn1` | main.c:588-752 | one pass on the array equals one value-level step |
| `Browse.SpecialKeyIn` | main.c:662-714 | the special keys on the array equal the value-level special-key step |
| `Browse.CharKeyIn` | main.c:716-748 | the character keys equal the value-level character-key step and leave the array alone |
| `Browse.SpaceOrEnter` | main.c:666-684 | flips the highlighted flag in place, then moves down as 'j' does |

## Left out

- libalpm is not part of this model. The calls are `alpm_initialize`, `alpm_register_syncdb`, `alpm_db_get_pkg`, `alpm_pkg_get_depends`, `alpm_sync_get_new_version` and the getters. The local database is a map from names to dependency lists. The new-version query is a function parameter. A package is a record of name, installed size and description.
- Terminal output is not part of this model: termbox, `write_str` and `tb_present`. A turn of the main loop is the screen height and the polled event. The description panel yields the list of placements `write_str` would receive.
- File and configuration plumbing is left out: `getenv`, `stat`, `mkdir`, `fopen`, `rewind`, `fclose`, `printf` output and the exit codes. The keep file is its text. Reading it is modelled as the text `fgets` walks through. Writing is the text `fprintf` produces.
- `KeepList.KeepListRoundTrip` speaks of the text one run writes, which is the whole file only when the file was empty before that run; `KeepList.WriteKeepFile` and `KeepList.KeepFileDoubles` state what the file holds otherwise.
- Allocation failure, `free` and pointer aliasing are left out. `realloc` becomes a fresh array with the old entries copied.
- Characters are modelled as non-negative codes. `hash` adds a `char`, which is signed on most targets, so a byte at or above 0x80 hashes differently in C.
- Package names of 200 characters or more are not modelled: `snprintf` would truncate them. Every name the walk and the candidate filter see fits the buffer (`IsCName`).
- A NUL byte inside the keep file is not modelled. At the start of an `fgets` piece it makes `strlen` 0, and line 476 then reads `name[-1]`; elsewhere it cuts the name short. `ReadKeepNames` requires a NUL-free text.
- A package without a description is not modelled: `alpm_pkg_get_desc` returning NULL would be dereferenced at line 634. The panel requires a terminated string.
- `NameSets.Home`: `hash & (capacity - 1)` is modelled as the remainder modulo the capacity. The two agree because the capacity is always a power of two, which `NameSet.Valid` keeps. That agreement is not itself proved.
- `Upgrades.ComparePkgStates`: installed sizes are unbounded naturals. The C code truncates them to `int` and subtracts, which can overflow for sizes beyond 2^31.
- `Upgrades.SortBySize`: `qsort` is not stable and its order among equal sizes is unspecified. The model fixes one such order, the insertion order of `SortBySizeSpec`, and proves the properties any valid result has.
- `Closure.AddDependencies`: after an insertion that found no slot, the C code walks the dependencies with no bound; on a cyclic graph it can recurse until the stack runs out. A `fuel` parameter bounds only those walks, and the model stops when it runs out. Walks after stored insertions are not bounded.
- `Closure.Visit` checks again whether the name was stored, which the C code does not do. This decides when `fuel` is spent and changes nothing in the set.
- `Browse.Step`: a pass that would read outside the upgrade list ends the run with the status `OutOfRange`; in C that read is undefined behaviour.
- `Browse.BrowseLoop`: the final printing of the selected package names (main.c:773-787) is output and is left out. The flags it reads are the loop's final items.
- `pkg_state_list_free`, `pkg_name_list_free` and `name_set_free` only release memory and are left out.

=== FILE: browse.dfy ===
/**
  The interactive loop of main.c:580-753. Each turn clamps the selection to the screen,
  reads the highlighted package and the visible rows, polls one event and updates
  `base_index` (the first visible row), `selection_index` (the highlighted row on screen)
  and the `is_selected` flags. Terminal output is left out; a turn is the screen height
  at its start and the event it polls.
*/
module Browse {
  import opened Upgrades

  /** The special keys the loop handles (termbox `TB_KEY_*`), and any other one. */
  datatype Key = KeySpace | KeyEnter | KeyCtrlU | KeyCtrlD | KeyOther

  /**
    What `tb_poll_event` reports: a key event with its character (NUL for a special key)
    and key code, an event of another type, or a failure.
  */
  datatype Event = Input(ch: char, key: Key) | NonKey | PollFailed

  /** One pass of the loop: `tb_height()` at its start and the event it polls. */
  datatype Turn = Turn(height: nat, event: Event)

  /** The loop's state: `base_index`, `selection_index` and the upgrade list. */
  datatype View = View(base: int, sel: int, items: seq<PkgState>)

  /**
    How a turn ends: the loop goes on, the user quit with 'q', polling failed (exit code
    15), or the turn read outside the upgrade list, which C leaves undefined.
  */
  datatype Status = Go | Quits | PollError | OutOfRange

  datatype Outcome = Outcome(status: Status, view: View)

  /** The resize clamp (main.c:592-597): the selection may not pass the bottom line. */
  function Clamp(sel: int, height: int): (s: int)
    ensures s <= height - 1
    ensures s == sel || s == height - 1
    ensures sel < height ==> s == sel
  {
    if sel >= height - 1 then height - 1 else sel
  }

  /** `min(tb_height(), upgrade_list->size)` (main.c:603). */
  function ViewHeight(height: int, n: nat): (vh: int)
    ensures vh <= height && vh <= n && (vh == height || vh == n)
  {
    if height < n then height else n
  }

  /**
    Every index a turn reads lies in the list: the highlighted package (main.c:600-601,
    630) and the `vh` visible rows from `base` (main.c:604-619).
  */
  predicate ReadsInRange(base: int, sel: int, vh: int, n: nat)
  {
    0 <= base + sel < n && (vh <= 0 || (0 <= base && base + vh <= n))
  }

  /**
    The downward move shared by 'j' and Space/Enter (main.c:675-682, 725-732): scroll
    when on the last visible row, else move the highlight down while it is on screen.
  */
  function MoveDown(base: int, sel: int, vh: int): (int, int)
  {
    if sel == vh - 1 then (base + 1, sel) else if sel < vh then (base, sel + 1) else (base, sel)
  }

  /** Flips the `is_selected` flag of item `k` (main.c:670). */
  function Toggle(items: seq<PkgState>, k: nat): (r: seq<PkgState>)
    requires k < |items|
    ensures |r| == |items| && r[k].pkg == items[k].pkg && r[k].isSelected != items[k].isSelected
    ensures forall i :: 0 <= i < |items| && i != k ==> r[i] == items[i]
  {
    items[k := items[k].(isSelected := !items[k].isSelected)]
  }

  /** Ctrl-U (main.c:685-703): half a screen up, then the selection if the top was passed. */
  function CtrlU(base: int, sel: int, height: int): (int, int)
  {
    var b := base - height / 2;
    var m := if b < 0 then (0, if sel - height / 2 < 0 then 0 else sel - height / 2) else (b, sel);
    (m.0, if m.1 < 0 then 0 else m.1)
  }

  /** Ctrl-D (main.c:704-713): half a screen down, pulled back near the end of the list. */
  function CtrlD(base: int, sel: int, height: int, n: nat): (int, int)
  {
    var b := base + height / 2;
    if b >= n - (height - 1) then (n - (height - 1) - 1, sel + height / 2) else (b, sel)
  }

  /**
    One pass of the main loop (main.c:588-752). It reads outside the list exactly when the
    clamped state is out of range, quits only on 'q', and changes at most the flag of the
    highlighted item.
  */
  function Step(v: View, t: Turn): (o: Outcome)
    ensures |o.view.items| == |v.items|
    ensures o.status == OutOfRange <==>
              !ReadsInRange(v.base, Clamp(v.sel, t.height), ViewHeight(t.height, |v.items|), |v.items|)
    ensures o.status == Quits ==> t.event.Input? && t.event.ch == 'q'
    ensures forall i :: 0 <= i < |v.items| ==> o.view.items[i].pkg == v.items[i].pkg
    ensures forall i :: 0 <= i < |v.items| && i != v.base + Clamp(v.sel, t.height) ==>
              o.view.items[i] == v.items[i]
  {
    var n := |v.items|;
    var sel := Clamp(v.sel, t.height);
    var vh := ViewHeight(t.height, n);
    if !ReadsInRange(v.base, sel, vh, n) then Outcome(OutOfRange, v.(sel := sel))
    else
      match t.event
      case PollFailed => Outcome(PollError, v.(sel := sel))
      case NonKey => Outcome(Go, v.(sel := sel))
      case Input(ch, key) =>
        if ch == '\0' then SpecialKey(v.(sel := sel), t.height, key)
        else CharKey(v.(sel := sel), t.height, ch)
  }

  /** A special key (main.c:662-714), once the highlighted item is known to exist. */
  function SpecialKey(v: View, height: int, key: Key): (o: Outcome)
    requires 0 <= v.base + v.sel < |v.items|
    ensures o.status == Go && |o.view.items| == |v.items|
    ensures key != KeySpace && key != KeyEnter ==> o.view.items == v.items
    ensures forall i :: 0 <= i < |v.items| ==> o.view.items[i].pkg == v.items[i].pkg
    ensures forall i :: 0 <= i < |v.items| && i != v.base + v.sel ==> o.view.items[i] == v.items[i]
  {
    var n := |v.items|;
    var vh := ViewHeight(height, n);
    match key
    case KeySpace => var m := MoveDown(v.base, v.sel, vh); Outcome(Go, View(m.0, m.1, Toggle(v.items, v.base + v.sel)))
    case KeyEnter => var m := MoveDown(v.base, v.sel, vh); Outcome(Go, View(m.0, m.1, Toggle(v.items, v.base + v.sel)))
    case KeyCtrlU => var m := CtrlU(v.base, v.sel, height); Outcome(Go, View(m.0, m.1, v.items))
    case KeyCtrlD => var m := CtrlD(v.base, v.sel, height, n); Outcome(Go, View(m.0, m.1, v.items))
    case KeyOther => Outcome(Go, v)
  }

  /** A character key (main.c:716-748): 'q' quits, 'j' and 'k' move, the rest do nothing. */
  function CharKey(v: View, height: int, ch: char): (o: Outcome)
    ensures o.view.items == v.items
    ensures o.status == Quits <==> ch == 'q'
    ensures o.status == Go <==> ch != 'q'
  {
    var n := |v.items|;
    var vh := ViewHeight(height, n);
    var k := v.base + v.sel;
    if ch == 'q' then Outcome(Quits, v)
    else if ch == 'j' then
      var m := if k < n - 1 then MoveDown(v.base, v.sel, vh) else (v.base, v.sel);
      Outcome(Go, View(m.0, m.1, v.items))
    else if ch == 'k' then
      var m := if k > 0 then (if v.sel == 0 then (v.base - 1, v.sel) else if v.sel > 0 then (v.base, v.sel - 1) else (v.base, v.sel))
               else (v.base, v.sel);
      Outcome(Go, View(m.0, m.1, v.items))
    else Outcome(Go, v)
  }

  /**
    The loop over a sequence of turns, stopping at the first that does not go on. The
    packages and their order never change; only flags do.
  */
  function Run(v: View, turns: seq<Turn>): (o: Outcome)
    ensures |o.view.items| == |v.items|
    ensures forall i :: 0 <= i < |v.items| ==> o.view.items[i].pkg == v.items[i].pkg
    decreases |turns|
  {
    if turns == [] then Outcome(Go, v)
    else
      var o := Step(v, turns[0]);
      if o.status == Go then Run(o.view, turns[1..]) else o
  }

  /** A healthy state: the highlight is on screen and every row the turn reads exists. */
  predicate Good(v: View, height: int)
  {
    1 <= height && 0 <= v.base && 0 <= v.sel < height &&
    v.base + v.sel < |v.items| && v.base + ViewHeight(height, |v.items|) <= |v.items|
  }

  /** The start of the loop (main.c:580-581) is healthy on a screen at least one row high. */
  lemma StartIsGood(items: seq<PkgState>, height: int)
    requires 1 <= |items| && 1 <= height
    ensures Good(View(0, 0, items), height)
  {
  }

  /** A healthy state never reads outside the list. */
  lemma GoodReadsInRange(v: View, height: int)
    requires Good(v, height)
    ensures Clamp(v.sel, height) == v.sel
    ensures ReadsInRange(v.base, v.sel, ViewHeight(height, |v.items|), |v.items|)
  {
  }

  /**
    'j' moves the absolute index `base_index + selection_index` down by exactly one while
    it is not on the last item and leaves it alone there; the state stays healthy.
  */
  lemma JMovesDownByOne(v: View, height: int)
    requires Good(v, height)
    ensures var o := Step(v, Turn(height, Input('j', KeyOther)));
            o.status == Go && o.view.items == v.items && Good(o.view, height) &&
            o.view.base + o.view.sel == v.base + v.sel + (if v.base + v.sel < |v.items| - 1 then 1 else 0)
  {
  }

  /**
    'k' moves the absolute index up by exactly one while it is above the first item and
    leaves it alone there; the state stays healthy.
  */
  lemma KMovesUpByOne(v: View, height: int)
    requires Good(v, height)
    ensures var o := Step(v, Turn(height, Input('k', KeyOther)));
            o.status == Go && o.view.items == v.items && Good(o.view, height) &&
            o.view.base + o.view.sel == v.base + v.sel - (if v.base + v.sel > 0 then 1 else 0)
  {
  }

  /** Ten items, five rows, highlight on the bottom row: 'j' scrolls by one row. */
  lemma JScrollsAtBottom(items: seq<PkgState>)
    requires |items| == 10
    ensures Step(View(0, 4, items), Turn(5, Input('j', KeyOther))) == Outcome(Go, View(1, 4, items))
  {
  }

  /**
    Space and Enter flip the flag of the highlighted item and of no other, then move down
    as 'j' does but without its check for the last item.
  */
  lemma SpaceFlipsExactlyOne(v: View, t: Turn)
    requires t.event == Input('\0', KeySpace) || t.event == Input('\0', KeyEnter)
    requires ReadsInRange(v.base, Clamp(v.sel, t.height), ViewHeight(t.height, |v.items|), |v.items|)
    ensures var o := Step(v, t);
            var k := v.base + Clamp(v.sel, t.height);
            o.status == Go && o.view.items[k].isSelected != v.items[k].isSelected &&
            (forall i :: 0 <= i < |v.items| && i != k ==> o.view.items[i] == v.items[i]) &&
            (o.view.base, o.view.sel) == MoveDown(v.base, Clamp(v.sel, t.height), ViewHeight(t.height, |v.items|))
  {
  }

  /**
    Space/Enter on the last item scrolls past the end of the list: two items on a
    five-row screen, highlight on the second; the next turn reads outside the list.
  */
  lemma EnterOnLastItemOverruns(items: seq<PkgState>)
    requires |items| == 2
    ensures var o := Step(View(0, 1, items), Turn(5, Input('\0', KeyEnter)));
            o.status == Go && o.view.base == 1 && o.view.sel == 1 &&
            Step(o.view, Turn(5, NonKey)).status == OutOfRange
  {
  }

  /**
    Ctrl-D on a list shorter than the screen sets a negative `base_index`: three items
    on a ten-row screen give base -7 and selection 5, and the next turn reads outside.
  */
  lemma CtrlDOnShortListOverruns(items: seq<PkgState>)
    requires |items| == 3
    ensures var o := Step(View(0, 0, items), Turn(10, Input('\0', KeyCtrlD)));
            o == Outcome(Go, View(-7, 5, items)) &&
            Step(o.view, Turn(10, NonKey)).status == OutOfRange
  {
  }

  /**
    Space and Enter from a healthy state: the next turn at the same height reads outside
    the list exactly when the highlighted item was the last one; otherwise the state stays
    healthy.
  */
  lemma SpaceOverrunsIffLast(v: View, height: int, key: Key, next: Event)
    requires Good(v, height) && (key == KeySpace || key == KeyEnter)
    ensures var o := Step(v, Turn(height, Input('\0', key)));
            o.status == Go &&
            (Step(o.view, Turn(height, next)).status == OutOfRange <==> v.base + v.sel == |v.items| - 1) &&
            (v.base + v.sel < |v.items| - 1 ==> Good(o.view, height))
  {
  }

  /**
    Ctrl-D from a healthy state: the next turn at the same height reads outside the list
    exactly when the list is shorter than the screen.
  */
  lemma CtrlDOverrunsIffShort(v: View, height: int, next: Event)
    requires Good(v, height)
    ensures var o := Step(v, Turn(height, Input('\0', KeyCtrlD)));
            o.status == Go && o.view.items == v.items &&
            (Step(o.view, Turn(height, next)).status == OutOfRange <==> |v.items| < height)
  {
  }

  /**
    Growing the screen does not pull `base_index` back: ten items scrolled to base 5 on a
    five-row screen are healthy, but at eight rows the visible rows run past the end.
  */
  lemma ResizeOverreads(items: seq<PkgState>)
    requires |items| == 10
    ensures Good(View(5, 0, items), 5)
    ensures Step(View(5, 0, items), Turn(8, NonKey)).status == OutOfRange
  {
  }

  /** Ctrl-U keeps a healthy state healthy and never moves the absolute index down. */
  lemma CtrlUStaysGood(v: View, height: int)
    requires Good(v, height)
    ensures var o := Step(v, Turn(height, Input('\0', KeyCtrlU)));
            o.status == Go && o.view.items == v.items && Good(o.view, height) &&
            o.view.base + o.view.sel <= v.base + v.sel
  {
  }

  /** Turns that keep the screen height and press neither Space, Enter nor Ctrl-D. */
  predicate Navigation(t: Turn, height: int)
  {
    t.height == height &&
    match t.event
    case Input(ch, key) => ch != '\0' || key == KeyCtrlU || key == KeyOther
    case NonKey => true
    case PollFailed => true
  }

  /** One navigation turn from a healthy state ends healthy, or stops without an overrun. */
  lemma NavigationStep(v: View, t: Turn, height: int)
    requires Good(v, height) && Navigation(t, height)
    ensures var o := Step(v, t);
            o.status != OutOfRange && o.view.items == v.items && (o.status == Go ==> Good(o.view, height))
  {
    match t.event
    case Input(ch, key) =>
      if ch == 'j' {
        JMovesDownByOne(v, height);
      } else if ch == 'k' {
        KMovesUpByOne(v, height);
      } else if ch == '\0' && key == KeyCtrlU {
        CtrlUStaysGood(v, height);
      }
    case NonKey =>
    case PollFailed =>
  }

  /**
    Any number of navigation turns at a fixed height from a healthy state never read
    outside the list and leave every flag as it was.
  */
  lemma {:induction false} NavigationNeverOverruns(v: View, turns: seq<Turn>, height: int)
    requires Good(v, height)
    requires forall i :: 0 <= i < |turns| ==> Navigation(turns[i], height)
    ensures Run(v, turns).status != OutOfRange && Run(v, turns).view.items == v.items
    decreases |turns|
  {
    if turns != [] {
      NavigationStep(v, turns[0], height);
      var o := Step(v, turns[0]);
      if o.status == Go {
        NavigationNeverOverruns(o.view, turns[1..], height);
      }
    }
  }

  /**
    The main loop over the turns, on the sorted upgrade list in place: `is_selected` is
    flipped in the array itself.
  */
  method BrowseLoop(list: PkgStateList, turns: seq<Turn>) returns (o: Outcome)
    requires list.Valid() && 1 <= list.size
    modifies list.ary
    ensures list.Valid()
    ensures o == Run(View(0, 0, old(list.Contents())), turns)
    ensures list.Contents() == o.view.items
  {
    var base := 0;
    var sel := 0;
    var i := 0;
    while i < |turns|
      invariant list.Valid() && i <= |turns|
      invariant Run(View(0, 0, old(list.Contents())), turns) == Run(View(base, sel, list.Contents()), turns[i..])
      decreases |turns| - i
    {
      ghost var before := View(base, sel, list.Contents());
      var status;
      status, base, sel := Turn1(list, base, sel, turns[i]);
      assert turns[i..][1..] == turns[i + 1..];
      if status != Go {
        return Outcome(status, View(base, sel, list.ary[..list.size]));
      }
      i := i + 1;
    }
    return Outcome(Go, View(base, sel, list.ary[..list.size]));
  }

  /** One pass of the main loop (main.c:588-752) on the list in place. */
  method Turn1(list: PkgStateList, base0: int, sel0: int, t: Turn) returns (status: Status, base: int, sel: int)
    requires list.Valid()
    modifies list.ary
    ensures list.Valid()
    ensures Step(View(base0, sel0, old(list.Contents())), t) == Outcome(status, View(base, sel, list.Contents()))
  {
    base, sel := base0, sel0;
    var n: int := list.size;
    var bottomLine := t.height - 1;
    if sel >= bottomLine {
      sel := bottomLine;
    }
    var pkgIndex := base + sel;
    var viewHeight := if t.height < n then t.height else n;
    if !(0 <= pkgIndex < n && (viewHeight <= 0 || (0 <= base && base + viewHeight <= n))) {
      return OutOfRange, base, sel;
    }
    match t.event {
      case PollFailed =>
        return PollError, base, sel;
      case NonKey =>
        status := Go;
      case Input(ch, key) =>
        if ch == '\0' {
          base, sel := SpecialKeyIn(list, base, sel, t.height, key);
          status := Go;
        } else {
          status, base, sel := CharKeyIn(list, base, sel, t.height, ch);
        }
    }
  }

  /** The special keys (main.c:662-714) on the list in place. */
  method SpecialKeyIn(list: PkgStateList, base0: int, sel0: int, height: int, key: Key)
    returns (base: int, sel: int)
    requires list.Valid() && 0 <= base0 + sel0 < list.size
    modifies list.ary
    ensures list.Valid()
    ensures SpecialKey(View(base0, sel0, old(list.Contents())), height, key)
         == Outcome(Go, View(base, sel, list.Contents()))
  {
    base, sel := base0, sel0;
    var n: int := list.size;
    var bottomLine := height - 1;
    var viewHeight := if height < n then height else n;
    match key {
      case KeySpace =>
        base, sel := SpaceOrEnter(list, base, sel, base + sel, viewHeight);
      case KeyEnter =>
        base, sel := SpaceOrEnter(list, base, sel, base + sel, viewHeight);
      case KeyCtrlU =>
        base := base - height / 2;
        if base < 0 {
          base := 0;
          sel := sel - height / 2;
          if sel < 0 {
            sel := 0;
          }
        }
        if sel < 0 {
          sel := 0;
        }
      case KeyCtrlD =>
        base := base + height / 2;
        if base >= n - bottomLine {
          base := n - bottomLine - 1;
          sel := sel + height / 2;
        }
      case KeyOther =>
    }
  }

  /** The character keys (main.c:716-748); none of them touches the list. */
  method CharKeyIn(list: PkgStateList, base0: int, sel0: int, height: int, ch: char)
    returns (status: Status, base: int, sel: int)
    requires list.Valid()
    ensures CharKey(View(base0, sel0, list.Contents()), height, ch)
         == Outcome(status, View(base, sel, list.Contents()))
  {
    base, sel := base0, sel0;
    var n: int := list.size;
    var viewHeight := if height < n then height else n;
    status := Go;
    if ch == 'q' {
      status := Quits;
    } else if ch == 'j' {
      if base + sel < n - 1 {
        if sel == viewHeight - 1 {
          base := base + 1;
        } else if sel < viewHeight {
          sel := sel + 1;
        }
      }
    } else if ch == 'k' {
      if base + sel > 0 {
        if sel == 0 {
          base := base - 1;
        } else if sel > 0 {
          sel := sel - 1;
        }
      }
    }
  }

  /** Space/Enter (main.c:666-684): flip the highlighted flag, then move down. */
  method SpaceOrEnter(list: PkgStateList, base0: int, sel0: int, pkgIndex: nat, viewHeight: int)
    returns (base: int, sel: int)
    requires list.Valid() && pkgIndex < list.size
    modifies list.ary
    ensures list.Valid()
    ensures list.Contents() == Toggle(old(list.Contents()), pkgIndex)
    ensures (base, sel) == MoveDown(base0, sel0, viewHeight)
  {
    var item := list.ary[pkgIndex];
    list.ary[pkgIndex] := item.(isSelected := !item.isSelected);
    base, sel := base0, sel0;
    if sel == viewHeight - 1 {
      base := base + 1;
    } else if sel < viewHeight {
      sel := sel + 1;
    }
  }
}

=== FILE: closure.dfy ===
/**
  The dependency walk of main.c: `name_set_add_dependencies` (main.c:328-349) visits a
  package of the local database and, recursively, its dependencies, using the name set as
  the visited set; the keep-list loop (main.c:505-522) starts it from every keep name that
  the local database knows and copies the others to an "unfound" list.

  The graph facts are stated over any element type, so that they are proved once about
  sets and maps and then applied to package names.
*/
module Closure {
  import opened CStrings
  import opened PkgNames
  import opened NameLists
  import opened NameSets

  /** A package name that fits the name buffer whole. */
  type Name = s: seq<char> | IsCName(s)

  /**
    The local database as the walk sees it: `alpm_db_get_pkg` finds a package by name
    (a key of the map) and `alpm_pkg_get_depends` lists its dependency names.
  */
  type LocalDb = map<Name, seq<Name>>

  // ---------------------------------------------------------------------------------
  // Dependency graphs

  /** Every package of `from` that is in the database has its known dependencies in `k`. */
  ghost predicate DepsIn<T>(db: map<T, seq<T>>, from: set<T>, k: set<T>)
  {
    forall p {:trigger db[p]} :: p in from && p in db ==> forall d :: d in db[p] && d in db ==> d in k
  }

  /** `k` is closed under the dependencies the database knows. */
  ghost predicate Closed<T>(db: map<T, seq<T>>, k: set<T>)
  {
    DepsIn(db, k, k)
  }

  /** `added` lies inside every closed set that holds the roots the database knows. */
  ghost predicate Within<T(!new)>(db: map<T, seq<T>>, roots: set<T>, added: set<T>)
  {
    forall bound {:trigger Closed(db, bound)} :: Closed(db, bound) && roots * db.Keys <= bound ==> added <= bound
  }

  /** The names of `deps` the database knows are all in `k`. */
  ghost predicate FoundIn<T>(deps: seq<T>, db: map<T, seq<T>>, k: set<T>)
  {
    forall j :: 0 <= j < |deps| && deps[j] in db ==> deps[j] in k
  }

  function Elems<T>(s: seq<T>): set<T>
  {
    set x | x in s
  }

  lemma WithinUnion<T(!new)>(db: map<T, seq<T>>, roots: set<T>, a: set<T>, b: set<T>)
    requires Within(db, roots, a) && Within(db, roots, b)
    ensures Within(db, roots, a + b)
  {
  }

  lemma WithinMono<T(!new)>(db: map<T, seq<T>>, roots: set<T>, roots': set<T>, a: set<T>, a': set<T>)
    requires roots <= roots' && a' <= a && Within(db, roots, a)
    ensures Within(db, roots', a')
  {
    forall bound | Closed(db, bound) && roots' * db.Keys <= bound ensures a' <= bound {
      assert roots * db.Keys <= bound;
    }
  }

  /** What a visit of `name` adds, itself and what its dependency list adds, stays within. */
  lemma WithinVisit<T(!new)>(db: map<T, seq<T>>, name: T, rest: set<T>)
    requires name in db && Within(db, Elems(db[name]), rest)
    ensures Within(db, {name}, {name} + rest)
  {
    forall bound | Closed(db, bound) && {name} * db.Keys <= bound ensures {name} + rest <= bound {
      assert name in bound;
      assert Elems(db[name]) * db.Keys <= bound;
    }
  }

  lemma WithinNothing<T(!new)>(db: map<T, seq<T>>, roots: set<T>)
    ensures Within(db, roots, {})
  {
  }

  lemma DepsInUnion<T>(db: map<T, seq<T>>, a: set<T>, k: set<T>, b: set<T>, k': set<T>)
    requires DepsIn(db, a, k) && k <= k' && DepsIn(db, b, k')
    ensures DepsIn(db, a + b, k')
  {
  }

  /** A visited package whose known dependencies are all present. */
  lemma DepsInVisit<T>(db: map<T, seq<T>>, name: T, k: set<T>)
    requires name in db && FoundIn(db[name], db, k)
    ensures DepsIn(db, {name}, k)
  {
    forall d | d in db[name] && d in db ensures d in k {
      var j :| 0 <= j < |db[name]| && db[name][j] == d;
    }
  }

  lemma FoundInStep<T>(deps: seq<T>, i: nat, db: map<T, seq<T>>, k: set<T>, k': set<T>)
    requires i < |deps| && FoundIn(deps[..i], db, k) && k <= k'
    requires deps[i] in db ==> deps[i] in k'
    ensures FoundIn(deps[..i + 1], db, k')
  {
    var p := deps[..i + 1];
    forall j | 0 <= j < |p| && p[j] in db ensures p[j] in k' {
      if j < i {
        assert deps[..i][j] == p[j];
      }
    }
  }

  // ---------------------------------------------------------------------------------
  // Counting

  lemma SubsetCard<T>(a: set<T>, b: set<T>)
    requires a <= b
    ensures |a| <= |b|
  {
    assert b == a + (b - a);
  }

  lemma DiffChain<T>(a: set<T>, b: set<T>, c: set<T>)
    requires a <= b <= c
    ensures |c - a| == |c - b| + |b - a|
    ensures c - a == (c - b) + (b - a)
  {
    assert c - a == (c - b) + (b - a);
    assert (c - b) * (b - a) == {};
  }

  /** Adding a database name the set lacked shrinks what is left to visit by one. */
  lemma MeasureAfterAdd<T>(dbKeys: set<T>, k0: set<T>, k1: set<T>, name: T, stored: bool)
    requires name in dbKeys && name !in k0 && k1 == k0 + (if stored then {name} else {})
    ensures |dbKeys - k1| + (if stored then 1 else 0) == |dbKeys - k0|
    ensures k0 <= k1 && k1 - k0 <= dbKeys
  {
    if stored {
      assert dbKeys - k0 == (dbKeys - k1) + {name};
    } else {
      assert k1 == k0;
    }
  }

  // ---------------------------------------------------------------------------------
  // What a walk does to the set

  /** The part of a name set's state the walk reasons about. */
  datatype Snap = Snap(keys: set<seq<char>>, dropped: nat, distinct: bool)

  ghost function SnapOf(nameSet: NameSet): Snap
    reads nameSet
  {
    Snap(nameSet.keys, nameSet.dropped, nameSet.distinct)
  }

  /**
    A walk from `roots` that took the set from `a` to `b`: it only added names, all from
    the database and all within every closed set holding the roots. When no insertion was
    lost, the names it added have their dependencies present and no text was stored twice.
  */
  ghost predicate Walked(db: LocalDb, roots: set<seq<char>>, a: Snap, b: Snap)
  {
    a.keys <= b.keys && b.keys - a.keys <= db.Keys && Within(db, roots, b.keys - a.keys) &&
    a.dropped <= b.dropped &&
    (b.dropped == a.dropped ==>
       DepsIn(db, b.keys - a.keys, b.keys) && (a.distinct ==> b.distinct))
  }

  /** Nothing added, whatever was lost. */
  lemma WalkIdle(db: LocalDb, roots: set<seq<char>>, a: Snap, b: Snap)
    requires a.keys == b.keys && a.dropped <= b.dropped
    requires b.dropped == a.dropped ==> b.distinct == a.distinct
    ensures Walked(db, roots, a, b)
  {
    assert b.keys - a.keys == {};
    WithinNothing(db, roots);
  }

  /** Two walks from the same roots, one after the other. */
  lemma WalkThen(db: LocalDb, roots: set<seq<char>>, d: Name, a: Snap, b: Snap, c: Snap)
    requires d in roots && Walked(db, roots, a, b) && Walked(db, {d}, b, c)
    ensures Walked(db, roots, a, c)
    ensures |db.Keys - c.keys| <= |db.Keys - b.keys|
  {
    SubsetCard(db.Keys - c.keys, db.Keys - b.keys);
    WithinThen(db, roots, d, a.keys, b.keys, c.keys);
    if c.dropped == a.dropped {
      DepsInThen(db, a.keys, b.keys, c.keys);
    }
  }

  lemma WithinThen<T(!new)>(db: map<T, seq<T>>, roots: set<T>, d: T, a: set<T>, b: set<T>, c: set<T>)
    requires d in roots && a <= b <= c
    requires Within(db, roots, b - a) && Within(db, {d}, c - b)
    ensures Within(db, roots, c - a)
  {
    DiffChain(a, b, c);
    WithinMono(db, {d}, roots, c - b, c - b);
    WithinUnion(db, roots, b - a, c - b);
  }

  lemma DepsInThen<T>(db: map<T, seq<T>>, a: set<T>, b: set<T>, c: set<T>)
    requires a <= b <= c
    requires DepsIn(db, b - a, b) && DepsIn(db, c - b, c)
    ensures DepsIn(db, c - a, c)
  {
    DiffChain(a, b, c);
    DepsInUnion(db, b - a, b, c - b, c);
  }

  /**
    A visit of `name` that added it (or lost it) and then walked its dependency list: a
    walk from `name`, which holds `name` when no insertion was lost.
  */
  lemma WalkVisit(db: LocalDb, name: Name, stored: bool, a: Snap, b: Snap, c: Snap)
    requires name in db && name !in a.keys
    requires b.keys == a.keys + (if stored then {name} else {})
    requires b.dropped == a.dropped + (if stored then 0 else 1) && b.distinct == a.distinct
    requires Walked(db, Elems(db[name]), b, c)
    requires c.dropped == b.dropped ==> FoundIn(db[name], db, c.keys)
    ensures Walked(db, {name}, a, c)
    ensures c.dropped == a.dropped ==> name in c.keys
  {
    MeasureAfterAdd(db.Keys, a.keys, b.keys, name, stored);
    DiffChain(a.keys, b.keys, c.keys);
    WithinVisit(db, name, c.keys - b.keys);
    if stored {
      assert b.keys - a.keys == {name};
      assert {name} + (c.keys - b.keys) == c.keys - a.keys;
      if c.dropped == a.dropped {
        DepsInVisit(db, name, c.keys);
        DepsInUnion(db, c.keys - b.keys, c.keys, {name}, c.keys);
      }
    } else {
      WithinMono(db, {name}, {name}, {name} + (c.keys - b.keys), c.keys - a.keys);
    }
  }

  // ---------------------------------------------------------------------------------
  // The walk

  /**
    The head of name_set_add_dependencies (main.c:332-335): a name is added only when the
    database has it and the set does not. `go` says whether its dependencies are walked:
    always after a stored insertion, and after a lost one only while `fuel` lasts.
  */
  method Visit(nameSet: NameSet, db: LocalDb, name: Name, fuel: nat)
    returns (go: bool, inner: nat, ghost stored: bool)
    requires nameSet.Valid()
    modifies nameSet.Repr
    ensures nameSet.Valid() && fresh(nameSet.Repr - old(nameSet.Repr))
    ensures go ==> name in db && name !in old(nameSet.keys) && (stored || inner < fuel) &&
                   nameSet.keys == old(nameSet.keys) + (if stored then {name} else {}) &&
                   nameSet.dropped == old(nameSet.dropped) + (if stored then 0 else 1) &&
                   nameSet.distinct == old(nameSet.distinct)
    ensures !go ==> nameSet.keys == old(nameSet.keys) && nameSet.dropped >= old(nameSet.dropped)
    ensures !go && nameSet.dropped == old(nameSet.dropped) ==>
              (name in db ==> name in nameSet.keys) && nameSet.distinct == old(nameSet.distinct)
  {
    go, inner, stored := false, fuel, false;
    if name !in db {
      return;
    }
    var present := nameSet.HasCStr(name);
    if present {
      return;
    }
    stored := nameSet.AddCpyCStr(name);
    var nowPresent := nameSet.HasCStr(name);
    if !nowPresent {
      if fuel == 0 {
        return;
      }
      inner := fuel - 1;
    }
    go := true;
  }

  /**
    name_set_add_dependencies (main.c:328-349): visit a name, then walk its dependency
    list in order.

    The walk never adds a name outside the database, and whatever it adds lies in every
    dependency-closed set that contains its starting name. When no insertion was lost
    (`dropped` unchanged; see `NameSets.LostAtEndOfTable`), it adds the starting name,
    leaves the added names with their dependencies present, and inserts each name once.

    `fuel` bounds only the walks that follow a lost insertion: the C code recurses there
    without any bound.
  */
  method AddDependencies(nameSet: NameSet, db: LocalDb, name: Name, fuel: nat)
    requires nameSet.Valid()
    modifies nameSet.Repr
    ensures nameSet.Valid() && fresh(nameSet.Repr - old(nameSet.Repr))
    ensures Walked(db, {name}, old(SnapOf(nameSet)), SnapOf(nameSet))
    ensures nameSet.dropped == old(nameSet.dropped) ==> (name in db ==> name in nameSet.keys)
    decreases |db.Keys - nameSet.keys|, fuel, 1
  {
    ghost var s0 := SnapOf(nameSet);
    var go, inner, stored := Visit(nameSet, db, name, fuel);
    ghost var s1 := SnapOf(nameSet);
    if go {
      MeasureAfterAdd(db.Keys, s0.keys, s1.keys, name, stored);
      AddEach(nameSet, db, db[name], inner, |db.Keys - s1.keys|);
      WalkVisit(db, name, stored, s0, s1, SnapOf(nameSet));
    } else {
      WalkIdle(db, {name}, s0, s1);
    }
  }

  /**
    The loop over a package's dependency list (main.c:337-347): the walk above, started
    from each name of `deps` in order. `limit` bounds what is left to visit.
  */
  method AddEach(nameSet: NameSet, db: LocalDb, deps: seq<Name>, fuel: nat, ghost limit: nat)
    requires nameSet.Valid()
    requires |db.Keys - nameSet.keys| <= limit
    modifies nameSet.Repr
    ensures nameSet.Valid() && fresh(nameSet.Repr - old(nameSet.Repr))
    ensures Walked(db, Elems(deps), old(SnapOf(nameSet)), SnapOf(nameSet))
    ensures nameSet.dropped == old(nameSet.dropped) ==> FoundIn(deps, db, nameSet.keys)
    decreases limit, fuel, 2
  {
    ghost var s0 := SnapOf(nameSet);
    WalkIdle(db, Elems(deps), s0, s0);
    for i := 0 to |deps|
      invariant nameSet.Valid() && fresh(nameSet.Repr - old(nameSet.Repr))
      invariant Walked(db, Elems(deps), s0, SnapOf(nameSet))
      invariant |db.Keys - nameSet.keys| <= limit
      invariant nameSet.dropped == s0.dropped ==> FoundIn(deps[..i], db, nameSet.keys)
    {
      ghost var si := SnapOf(nameSet);
      AddDependencies(nameSet, db, deps[i], fuel);
      WalkThen(db, Elems(deps), deps[i], s0, si, SnapOf(nameSet));
      if nameSet.dropped == s0.dropped {
        FoundInStep(deps, i, db, si.keys, nameSet.keys);
      }
    }
    assert deps[..|deps|] == deps;
  }

  // ---------------------------------------------------------------------------------
  // The keep list

  /** The keep names the local database does not know, in keep-list order (main.c:511-515). */
  function Unfound(keep: seq<PkgName>, db: LocalDb): seq<PkgName>
  {
    if keep == [] then []
    else
      var last := keep[|keep| - 1];
      Unfound(keep[..|keep| - 1], db) + (if Key(last) in db then [] else [last])
  }

  /** A name is unfound exactly when it is a keep name whose text the database lacks. */
  lemma {:induction false} UnfoundMembers(keep: seq<PkgName>, db: LocalDb)
    ensures forall n :: n in Unfound(keep, db) <==> n in keep && Key(n) !in db
    ensures |Unfound(keep, db)| <= |keep|
  {
    if keep != [] {
      var p := keep[..|keep| - 1];
      UnfoundMembers(p, db);
      assert keep == p + [keep[|keep| - 1]];
    }
  }

  lemma UnfoundStep(names: seq<PkgName>, i: nat, db: LocalDb)
    requires i < |names|
    ensures Unfound(names[..i + 1], db)
         == Unfound(names[..i], db) + (if Key(names[i]) in db then [] else [names[i]])
  {
    assert names[..i + 1][..i] == names[..i];
  }

  /** The texts of a list of names. */
  function Texts(names: seq<PkgName>): set<seq<char>>
  {
    if names == [] then {} else Texts(names[..|names| - 1]) + {Key(names[|names| - 1])}
  }

  /** A text is among the texts exactly when some name has it. */
  lemma {:induction false} TextsMembers(names: seq<PkgName>)
    ensures forall t :: t in Texts(names) <==> exists n :: n in names && Key(n) == t
  {
    if names != [] {
      var p := names[..|names| - 1];
      TextsMembers(p);
      assert names == p + [names[|names| - 1]];
    }
  }

  lemma TextsStep(names: seq<PkgName>, i: nat)
    requires i < |names|
    ensures Texts(names[..i + 1]) == Texts(names[..i]) + {Key(names[i])}
    ensures Texts(names[..i + 1]) <= Texts(names)
  {
    assert names[..i + 1][..i] == names[..i];
    TextsPrefix(names, i + 1);
  }

  lemma {:induction false} TextsPrefix(names: seq<PkgName>, i: nat)
    requires i <= |names|
    ensures Texts(names[..i]) <= Texts(names)
    decreases |names| - i
  {
    if i < |names| {
      TextsPrefix(names, i + 1);
      assert names[..i + 1][..i] == names[..i];
    } else {
      assert names[..i] == names;
    }
  }

  /**
    The keep-list loop (main.c:505-522): each keep name the local database does not know is
    copied to a new `unfound` list; the walk starts from every other one, and the remaining
    names are processed whatever happened before.

    The dependency set never holds a name outside the database and holds only names every
    closed set containing the found roots holds. When no insertion was lost, it holds every
    found root, is closed under dependencies, holds no text twice and counts each text once;
    it is then exactly the least closed set containing the found roots.
  */
  method CollectKeepDependencies(keep: PkgNameList, db: LocalDb, fuel: nat)
    returns (deps: NameSet, unfound: PkgNameList)
    requires keep.Valid()
    requires forall n :: n in keep.Contents() ==> |Key(n)| < MaxNameSize
    ensures deps.Valid() && fresh(deps.Repr) && unfound.Valid() && fresh(unfound.Repr)
    ensures unfound.Contents() == Unfound(keep.Contents(), db)
    ensures deps.keys <= db.Keys
    ensures Within(db, Texts(keep.Contents()), deps.keys)
    ensures deps.dropped == 0 ==>
              Texts(keep.Contents()) * db.Keys <= deps.keys && Closed(db, deps.keys) &&
              deps.distinct && deps.size == |deps.keys|
  {
    deps := new NameSet();
    unfound := new PkgNameList(5);
    ghost var s0 := SnapOf(deps);
    KeepAll(keep, deps, unfound, db, fuel);
    KeepResult(db, Texts(keep.Contents()), s0, SnapOf(deps));
    if deps.dropped == 0 {
      deps.CountsKeys();
    }
  }

  /**
    What the keep-list loop has done after its first `i` names: `u` is the unfound list so
    far, and the set `d` is a walk from `s0` over all the keep texts that, when no insertion
    was lost, holds every found text among the first `i`.
  */
  ghost predicate Kept(db: LocalDb, names: seq<PkgName>, i: nat, s0: Snap, d: Snap, u: seq<PkgName>)
    requires i <= |names|
  {
    u == Unfound(names[..i], db) &&
    Walked(db, Texts(names), s0, d) &&
    (d.dropped == 0 ==> Texts(names[..i]) * db.Keys <= d.keys)
  }

  /** The keep-list loop itself (main.c:507-522), run on a fresh set and an empty list. */
  method KeepAll(keep: PkgNameList, deps: NameSet, unfound: PkgNameList, db: LocalDb, fuel: nat)
    requires keep.Valid() && deps.Valid() && unfound.Valid()
    requires forall n :: n in keep.Contents() ==> |Key(n)| < MaxNameSize
    requires deps.Repr !! unfound.Repr && keep.Repr !! deps.Repr && keep.Repr !! unfound.Repr
    requires unfound.Contents() == [] && SnapOf(deps) == Snap({}, 0, true)
    modifies deps.Repr, unfound.Repr
    ensures deps.Valid() && fresh(deps.Repr - old(deps.Repr))
    ensures unfound.Valid() && fresh(unfound.Repr - old(unfound.Repr))
    ensures unfound.Contents() == Unfound(keep.Contents(), db)
    ensures Walked(db, Texts(keep.Contents()), Snap({}, 0, true), SnapOf(deps))
    ensures deps.dropped == 0 ==> Texts(keep.Contents()) * db.Keys <= deps.keys
  {
    ghost var names := keep.Contents();
    ghost var s0 := SnapOf(deps);
    WalkIdle(db, Texts(names), s0, s0);
    for i := 0 to keep.size
      invariant deps.Valid() && fresh(deps.Repr - old(deps.Repr))
      invariant unfound.Valid() && fresh(unfound.Repr - old(unfound.Repr))
      invariant deps.Repr !! unfound.Repr && keep.Repr !! deps.Repr && keep.Repr !! unfound.Repr
      invariant keep.Contents() == names
      invariant Kept(db, names, i, s0, SnapOf(deps), unfound.Contents())
    {
      KeepStep(keep, deps, unfound, db, fuel, i, names, s0);
    }
    assert names[..keep.size] == names;
  }

  /** Pass `i` of the keep-list loop, stated as the step from `Kept` at `i` to `i + 1`. */
  method KeepStep(keep: PkgNameList, deps: NameSet, unfound: PkgNameList, db: LocalDb, fuel: nat,
                  i: nat, ghost names: seq<PkgName>, ghost s0: Snap)
    requires keep.Valid() && deps.Valid() && unfound.Valid()
    requires deps.Repr !! unfound.Repr && keep.Repr !! deps.Repr && keep.Repr !! unfound.Repr
    requires keep.Contents() == names && i < |names|
    requires forall n :: n in names ==> |Key(n)| < MaxNameSize
    requires Kept(db, names, i, s0, SnapOf(deps), unfound.Contents())
    modifies deps.Repr, unfound.Repr
    ensures deps.Valid() && fresh(deps.Repr - old(deps.Repr))
    ensures unfound.Valid() && fresh(unfound.Repr - old(unfound.Repr))
    ensures deps.Repr !! unfound.Repr && keep.Repr !! deps.Repr && keep.Repr !! unfound.Repr
    ensures Kept(db, names, i + 1, s0, SnapOf(deps), unfound.Contents())
  {
    var pkgName := keep.Get(i);
    assert pkgName in names;
    UnfoundStep(names, i, db);
    TextsStep(names, i);
    KeepOne(deps, unfound, db, pkgName, fuel, Texts(names), s0);
  }

  /**
    One pass of the keep-list loop (main.c:507-521): a name the database does not know is
    appended to `unfound`; any other one starts a walk. The two arms touch different
    objects, so they are written as two guarded steps.
  */
  method KeepOne(deps: NameSet, unfound: PkgNameList, db: LocalDb, pkgName: PkgName, fuel: nat,
                 ghost roots: set<seq<char>>, ghost s0: Snap)
    requires deps.Valid() && unfound.Valid() && deps.Repr !! unfound.Repr
    requires |Key(pkgName)| < MaxNameSize && Key(pkgName) in roots
    requires Walked(db, roots, s0, SnapOf(deps))
    modifies deps.Repr, unfound.Repr
    ensures deps.Valid() && unfound.Valid() && deps.Repr !! unfound.Repr
    ensures fresh(deps.Repr - old(deps.Repr)) && fresh(unfound.Repr - old(unfound.Repr))
    ensures unfound.Contents()
         == old(unfound.Contents()) + (if Key(pkgName) in db then [] else [pkgName])
    ensures Walked(db, roots, s0, SnapOf(deps))
    ensures old(deps.keys) <= deps.keys && old(deps.dropped) <= deps.dropped
    ensures deps.dropped == old(deps.dropped) && Key(pkgName) in db ==> Key(pkgName) in deps.keys
  {
    var text := CStr(pkgName.name);
    var missing := text !in db;
    RememberUnfound(unfound, pkgName, missing);
    WalkFound(deps, db, text, fuel, roots, s0);
  }

  /** The arm of the keep-list loop for a name the database lacks (main.c:511-515). */
  method RememberUnfound(unfound: PkgNameList, pkgName: PkgName, missing: bool)
    requires unfound.Valid()
    modifies unfound.Repr
    ensures unfound.Valid() && fresh(unfound.Repr - old(unfound.Repr))
    ensures unfound.Contents() == old(unfound.Contents()) + (if missing then [pkgName] else [])
  {
    if missing {
      var k := unfound.NewName();
      unfound.Set(k, pkgName);
    }
  }

  /** The arm of the keep-list loop for a name the database has (main.c:516-520). */
  method WalkFound(deps: NameSet, db: LocalDb, text: Name, fuel: nat,
                   ghost roots: set<seq<char>>, ghost s0: Snap)
    requires deps.Valid() && text in roots && Walked(db, roots, s0, SnapOf(deps))
    modifies deps.Repr
    ensures deps.Valid() && fresh(deps.Repr - old(deps.Repr))
    ensures Walked(db, roots, s0, SnapOf(deps))
    ensures old(deps.keys) <= deps.keys && old(deps.dropped) <= deps.dropped
    ensures deps.dropped == old(deps.dropped) && text in db ==> text in deps.keys
  {
    if text in db {
      ghost var si := SnapOf(deps);
      AddDependencies(deps, db, text, fuel);
      WalkThen(db, roots, text, s0, si, SnapOf(deps));
    }
  }

  /** What a walk from nothing leaves: the set it ends with is what it added. */
  lemma KeepResult(db: LocalDb, roots: set<seq<char>>, a: Snap, b: Snap)
    requires a == Snap({}, 0, true) && Walked(db, roots, a, b)
    ensures b.keys <= db.Keys && Within(db, roots, b.keys)
    ensures b.dropped == 0 ==> Closed(db, b.keys) && b.distinct
  {
    assert b.keys - a.keys == b.keys;
  }

  /**
    A cyclic, self-referencing graph with a dependency the database does not know: "A"
    needs "B" and itself, "B" needs "A" and the unknown "C". Walking from "A" without a lost
    insertion yields exactly {"A", "B"}; the walk adds "A" then "B", and
    `NameSets.KeptInsertionExample` shows that neither insertion is lost.
  */
  lemma CyclicWalk(k: set<seq<char>>)
    requires var db: LocalDb := map["A" := ["B", "A"], "B" := ["A", "C"]];
             Within(db, {"A"}, k) && "A" in k && Closed(db, k)
    ensures k == {"A", "B"}
  {
    var db: LocalDb := map["A" := ["B", "A"], "B" := ["A", "C"]];
    assert "C" !in db;
    assert Closed(db, {"A", "B"});
    assert {"A"} * db.Keys <= {"A", "B"};
    assert "B" in db["A"];
  }
}

=== FILE: cstrings.dfy ===
/**
  NUL-terminated character buffers, as main.c stores package names and descriptions.
  A buffer is a `seq<char>`; the C string it holds is everything before its first '\0'.
*/
module CStrings {

  /** Size of the `name` buffer of a `pkg_name_t` (MAX_PACKAGE_NAME_SIZE). */
  const MaxNameSize := 200

  /** strlen: the index of the first NUL of `buf`, or `|buf|` when it holds none. */
  function CLen(buf: seq<char>): (n: nat)
    ensures n <= |buf|
    ensures forall i :: 0 <= i < n ==> buf[i] != '\0'
    ensures n < |buf| ==> buf[n] == '\0'
  {
    if buf == [] || buf[0] == '\0' then 0 else 1 + CLen(buf[1..])
  }

  /** The C string held in `buf`. */
  function CStr(buf: seq<char>): seq<char>
  {
    buf[..CLen(buf)]
  }

  /**
    A string that `snprintf(name, MAX_PACKAGE_NAME_SIZE, "%s", s)` copies whole into a
    package-name buffer: it holds no NUL and leaves room for the terminator.
  */
  predicate IsCName(s: seq<char>)
  {
    '\0' !in s && |s| < MaxNameSize
  }

  /** A buffer whose text `s` is followed by a terminator holds exactly `s`. */
  lemma {:induction false} CStrOfTerminated(s: seq<char>, rest: seq<char>)
    requires '\0' !in s
    ensures CLen(s + ['\0'] + rest) == |s|
    ensures CStr(s + ['\0'] + rest) == s
  {
    if s != [] {
      assert (s + ['\0'] + rest)[1..] == s[1..] + ['\0'] + rest;
      CStrOfTerminated(s[1..], rest);
    }
  }
}

=== FILE: keeplist.dfy ===
/**
  The keep list on disk (main.c:455-490, 758-768): one package name per line. Reading
  takes the file through `fgets` into a `pkg_name_list_t`, strips one trailing newline
  per line and seeds "pacman" and "glibc" when the file holds nothing; at exit every
  name is written back followed by a newline.
*/
module KeepList {
  import opened CStrings
  import opened PkgNames
  import opened NameLists

  /** `fgets(name, MAX_PACKAGE_NAME_SIZE, f)` stores at most this many characters. */
  const LineMax := MaxNameSize - 1

  /**
    How many characters one `fgets` call takes from the unread text `rest`: up to and
    including the first newline, but never more than `LineMax`.
  */
  function ChunkLen(rest: seq<char>): (n: nat)
    requires rest != []
    ensures 1 <= n <= |rest| && n <= LineMax
    ensures '\n' !in rest[..n - 1]
    ensures rest[n - 1] == '\n' || n == |rest| || n == LineMax
  {
    ScanLine(rest, 0)
  }

  /** Continues the scan of `ChunkLen` from position `i`, which holds no newline before it. */
  function ScanLine(rest: seq<char>, i: nat): (n: nat)
    requires i < |rest| && i < LineMax && '\n' !in rest[..i]
    ensures i < n <= |rest| && n <= LineMax
    ensures '\n' !in rest[..n - 1]
    ensures rest[n - 1] == '\n' || n == |rest| || n == LineMax
    decreases |rest| - i
  {
    if rest[i] == '\n' || i + 1 == |rest| || i + 1 == LineMax then i + 1
    else
      assert rest[..i + 1] == rest[..i] + [rest[i]];
      ScanLine(rest, i + 1)
  }

  /** The successive pieces `fgets` cuts the file text into. */
  function Chunks(text: seq<char>): seq<seq<char>>
    decreases |text|
  {
    if text == [] then [] else
      var n := ChunkLen(text);
      [text[..n]] + Chunks(text[n..])
  }

  /** Joins pieces back into one text. */
  function Concat(pieces: seq<seq<char>>): seq<char>
  {
    if pieces == [] then [] else pieces[0] + Concat(pieces[1..])
  }

  /** The pieces are non-empty, fit the buffer and put together give back the text. */
  lemma {:induction false} ChunksSplit(text: seq<char>)
    ensures Concat(Chunks(text)) == text
    ensures forall c :: c in Chunks(text) ==> 1 <= |c| <= LineMax
    decreases |text|
  {
    if text != [] {
      var n := ChunkLen(text);
      var head, tail := text[..n], text[n..];
      ChunksSplit(tail);
      assert Chunks(text) == [head] + Chunks(tail);
      assert Chunks(text)[1..] == Chunks(tail);
      SplitAt(text, n);
    }
  }

  lemma SplitAt<T>(s: seq<T>, n: nat)
    requires n <= |s|
    ensures s[..n] + s[n..] == s
  {
  }

  /**
    The name one line becomes (main.c:467, 474-480): `fgets` leaves the piece and a NUL in
    the buffer, `size` is strlen + 1, and a final newline is overwritten by NUL.
  */
  function LineName(chunk: seq<char>): (r: PkgName)
    requires chunk != [] && '\0' !in chunk
    ensures WellFormed(r)
    ensures Key(r) + (if chunk[|chunk| - 1] == '\n' then "\n" else "") == chunk
  {
    var m := |chunk| - 1;
    if chunk[m] == '\n' then
      var r := PkgName(chunk[..m] + ['\0', '\0'], m + 1);
      assert r.name[..r.size - 1] == chunk[..m];
      WellFormedKey(r);
      r
    else
      var r := PkgName(chunk + ['\0'], m + 2);
      assert r.name[..r.size - 1] == chunk;
      WellFormedKey(r);
      r
  }

  /** The names the reading loop (main.c:464-483) collects from the file text. */
  function ReadNames(text: seq<char>): seq<PkgName>
    requires '\0' !in text
    decreases |text|
  {
    if text == [] then [] else
      var n := ChunkLen(text);
      [LineName(text[..n])] + ReadNames(text[n..])
  }

  /** The names main.c:486-490 seeds: "pacman" and "glibc", each with the stale size 1. */
  function DefaultNames(): (r: seq<PkgName>)
    ensures |r| == 2 && Key(r[0]) == "pacman" && Key(r[1]) == "glibc"
    ensures r[0].size == 1 && r[1].size == 1
  {
    [WriteText(EmptyName, "pacman"), WriteText(EmptyName, "glibc")]
  }

  /** The keep list the program works with: what the file holds, or the defaults. */
  function KeepNames(text: seq<char>): seq<PkgName>
    requires '\0' !in text
  {
    if text == [] then DefaultNames() else ReadNames(text)
  }

  /**
    main.c:463-490: reads the file text line by line into a fresh list, then seeds the
    defaults if nothing was read.
  */
  method ReadKeepNames(file: seq<char>) returns (keep: PkgNameList)
    requires '\0' !in file
    ensures keep.Valid() && fresh(keep.Repr)
    ensures keep.Contents() == KeepNames(file)
  {
    keep := new PkgNameList(5);
    ReadLines(keep, file);
    if keep.size <= 0 {
      SeedDefaults(keep);
    }
  }

  /**
    The reading loop (main.c:464-483): one round per `fgets` call until it finds nothing.
    `rest` is the part of the file the stream has not handed out yet.
  */
  method ReadLines(keep: PkgNameList, file: seq<char>)
    requires keep.Valid() && keep.Contents() == [] && '\0' !in file
    modifies keep.Repr
    ensures keep.Valid() && fresh(keep.Repr - old(keep.Repr))
    ensures keep.Contents() == ReadNames(file)
    ensures keep.size == 0 <==> file == []
  {
    var rest := file;
    var done := false;
    while !done
      invariant keep.Valid() && fresh(keep.Repr - old(keep.Repr))
      invariant '\0' !in rest && |rest| <= |file| && (done ==> rest == [])
      invariant keep.Contents() + ReadNames(rest) == ReadNames(file)
      invariant keep.size == 0 <==> rest == file
      decreases |rest|, !done
    {
      done, rest := ReadLine(keep, rest);
    }
  }

  /**
    One round of the reading loop: `pkg_name_new` allocates a slot; when `fgets` finds
    nothing more the slot is given back (main.c:468-472), otherwise it receives the line.
  */
  method ReadLine(keep: PkgNameList, rest: seq<char>) returns (done: bool, next: seq<char>)
    requires keep.Valid() && '\0' !in rest
    modifies keep.Repr
    ensures keep.Valid() && fresh(keep.Repr - old(keep.Repr))
    ensures done <==> rest == []
    ensures keep.size == old(keep.size) + (if done then 0 else 1)
    ensures '\0' !in next && |next| <= |rest| && (!done ==> |next| < |rest|)
    ensures keep.Contents() + ReadNames(next) == old(keep.Contents()) + ReadNames(rest)
  {
    var k := keep.NewName();
    if rest == [] {
      keep.DropLast();
      return true, rest;
    }
    var n := ChunkLen(rest);
    var line := LineName(rest[..n]);
    keep.Set(k, line);
    next := rest[n..];
    assert keep.Contents() == old(keep.Contents()) + [line];
    ReadMore(old(keep.Contents()), line, ReadNames(next), ReadNames(rest));
    done := false;
  }

  lemma ReadMore(before: seq<PkgName>, line: PkgName, rest: seq<PkgName>, here: seq<PkgName>)
    requires here == [line] + rest
    ensures (before + [line]) + rest == before + here
  {
  }

  /** main.c:486-490: "pacman" and "glibc" written into two fresh slots. */
  method SeedDefaults(keep: PkgNameList)
    requires keep.Valid() && keep.Contents() == []
    modifies keep.Repr
    ensures keep.Valid() && fresh(keep.Repr - old(keep.Repr))
    ensures keep.Contents() == DefaultNames()
  {
    var k := keep.NewName();
    keep.Set(k, WriteText(keep.Get(k), "pacman"));
    k := keep.NewName();
    keep.Set(k, WriteText(keep.Get(k), "glibc"));
  }

  /** Every name read from a file is well formed, fits the buffer and holds no newline. */
  lemma {:induction false} ReadNamesShape(text: seq<char>)
    requires '\0' !in text
    ensures forall r :: r in ReadNames(text) ==>
              WellFormed(r) && |Key(r)| < MaxNameSize && '\n' !in Key(r)
    ensures |ReadNames(text)| == |Chunks(text)|
    decreases |text|
  {
    if text != [] {
      var n := ChunkLen(text);
      var c := text[..n];
      var r := LineName(c);
      assert c == Key(r) + (if c[n - 1] == '\n' then "\n" else "");
      assert Key(r) == c[..|Key(r)|];
      assert c[..n - 1] == text[..n - 1];
      ReadNamesShape(text[n..]);
    }
  }

  /**
    The list handed on to the dependency walk is never empty and every text in it fits a
    name buffer, as `CollectKeepDependencies` expects.
  */
  lemma KeepNamesUsable(text: seq<char>)
    requires '\0' !in text
    ensures KeepNames(text) != []
    ensures forall r :: r in KeepNames(text) ==> |Key(r)| < MaxNameSize
  {
    if text != [] {
      ReadNamesShape(text);
      assert ReadNames(text) == [LineName(text[..ChunkLen(text)])] + ReadNames(text[ChunkLen(text)..]);
    }
  }

  /** The texts of a list of names, in order. */
  function Lines(names: seq<PkgName>): (r: seq<seq<char>>)
    ensures |r| == |names|
  {
    if names == [] then [] else [Key(names[0])] + Lines(names[1..])
  }

  /**
    What main.c:761-766 writes: each name's text followed by a newline. The text holds no
    NUL, and it is empty exactly when the list is, otherwise it ends with a newline.
  */
  function KeepFileText(names: seq<PkgName>): (r: seq<char>)
    ensures '\0' !in r
    ensures r == [] <==> names == []
    ensures r != [] ==> r[|r| - 1] == '\n'
  {
    if names == [] then []
    else
      var k := Key(names[0]);
      assert '\0' !in k by {
        assert forall i :: 0 <= i < |k| ==> k[i] == names[0].name[i];
      }
      k + "\n" + KeepFileText(names[1..])
  }

  /** Writing two lists one after the other writes their texts one after the other. */
  lemma {:induction false} KeepFileTextAppend(a: seq<PkgName>, b: seq<PkgName>)
    ensures KeepFileText(a + b) == KeepFileText(a) + KeepFileText(b)
  {
    if a == [] {
      assert a + b == b;
    } else {
      calc {
        KeepFileText(a + b);
      == { assert (a + b)[0] == a[0] && (a + b)[1..] == a[1..] + b; }
        Key(a[0]) + "\n" + KeepFileText(a[1..] + b);
      == { KeepFileTextAppend(a[1..], b); }
        Key(a[0]) + "\n" + (KeepFileText(a[1..]) + KeepFileText(b));
      ==
        KeepFileText(a) + KeepFileText(b);
      }
    }
  }

  /** The text written depends only on the names' texts, not on their buffers or sizes. */
  lemma {:induction false} KeepFileTextOfLines(a: seq<PkgName>, b: seq<PkgName>)
    requires Lines(a) == Lines(b)
    ensures KeepFileText(a) == KeepFileText(b)
  {
    if a != [] {
      assert Lines(a)[0] == Key(a[0]) && Lines(b)[0] == Key(b[0]);
      assert Lines(a[1..]) == Lines(a)[1..] && Lines(b[1..]) == Lines(b)[1..];
      KeepFileTextOfLines(a[1..], b[1..]);
    }
  }

  lemma {:induction false} LinesAppend(a: seq<PkgName>, b: seq<PkgName>)
    ensures Lines(a + b) == Lines(a) + Lines(b)
  {
    if a != [] {
      assert (a + b)[1..] == a[1..] + b;
      LinesAppend(a[1..], b);
    } else {
      assert a + b == b;
    }
  }

  /**
    The write-back loop (main.c:758-768) on a keep file opened with "a+" (main.c:455):
    `rewind` moves only the read position, so every `fprintf` appends to what the file
    already holds.
  */
  method WriteKeepFile(keep: PkgNameList, file: seq<char>) returns (after: seq<char>)
    requires keep.Valid()
    ensures after == file + KeepFileText(keep.Contents())
  {
    ghost var names := keep.Contents();
    after := file;
    for i := 0 to keep.size
      invariant after == file + KeepFileText(names[..i])
    {
      var pkgName := keep.Get(i);
      after := after + CStr(pkgName.name) + "\n";
      KeepFileTextAppend(names[..i], [pkgName]);
      assert names[..i + 1] == names[..i] + [pkgName];
      assert KeepFileText([pkgName]) == Key(pkgName) + "\n";
    }
    assert names[..keep.size] == names;
  }

  /**
    The keep file after one run of the program: the list read from it (or the defaults),
    appended to what it held.
  */
  function AfterRun(file: seq<char>): seq<char>
    requires '\0' !in file
  {
    file + KeepFileText(KeepNames(file))
  }

  /** A text that fits a line and holds neither newline nor NUL is read back as one line. */
  lemma OneLine(s: seq<char>, rest: seq<char>)
    requires |s| < LineMax && '\n' !in s && '\0' !in s
    ensures ChunkLen(s + "\n" + rest) == |s| + 1
  {
    var t := s + "\n" + rest;
    assert t[|s|] == '\n';
    assert t[..|s|] == s;
  }

  /**
    Writing a non-empty keep list and reading the file back gives the same texts in the
    same order, provided each text is shorter than `LineMax` and holds no newline.
  */
  lemma {:induction false} WriteThenRead(names: seq<PkgName>)
    requires forall r :: r in names ==> |Key(r)| < LineMax && '\n' !in Key(r)
    ensures '\0' !in KeepFileText(names)
    ensures Lines(ReadNames(KeepFileText(names))) == Lines(names)
  {
    if names != [] {
      var s := Key(names[0]);
      var rest := KeepFileText(names[1..]);
      assert names[1..] == names[1..];
      WriteThenRead(names[1..]);
      var t := KeepFileText(names);
      assert t == s + "\n" + rest;
      assert '\0' !in s;
      OneLine(s, rest);
      assert t[..|s| + 1] == s + "\n";
      assert t[|s| + 1..] == rest;
      var r := LineName(s + "\n");
      assert Key(r) + "\n" == s + "\n";
      assert Key(r) == (Key(r) + "\n")[..|Key(r)|];
      assert ReadNames(t) == [r] + ReadNames(rest);
    }
  }

  /** Round trip of the whole keep list: a written non-empty list is what the next run keeps. */
  lemma KeepListRoundTrip(names: seq<PkgName>)
    requires names != []
    requires forall r :: r in names ==> |Key(r)| < LineMax && '\n' !in Key(r)
    ensures '\0' !in KeepFileText(names)
    ensures Lines(KeepNames(KeepFileText(names))) == Lines(names)
  {
    WriteThenRead(names);
    assert KeepFileText(names) != [];
  }

  /**
    Because of the append, every run doubles a keep file it wrote itself: the next run
    reads the list twice over, provided each text is shorter than `LineMax` and holds no
    newline.
  */
  lemma KeepFileDoubles(names: seq<PkgName>)
    requires names != []
    requires forall r :: r in names ==> |Key(r)| < LineMax && '\n' !in Key(r)
    ensures '\0' !in KeepFileText(names)
    ensures AfterRun(KeepFileText(names)) == KeepFileText(names + names)
    ensures Lines(KeepNames(AfterRun(KeepFileText(names)))) == Lines(names) + Lines(names)
  {
    var t := KeepFileText(names);
    KeepListRoundTrip(names);
    KeepFileTextOfLines(KeepNames(t), names);
    KeepFileTextAppend(names, names);
    KeepListRoundTrip(names + names);
    LinesAppend(names, names);
  }

  /**
    From an empty keep file: the first run writes the two defaults, and the second run
    reads them and appends them again, so the third reads four names.
  */
  lemma DefaultsDoubleOnSecondRun()
    ensures '\0' !in AfterRun([])
    ensures Lines(KeepNames(AfterRun(AfterRun([])))) == ["pacman", "glibc", "pacman", "glibc"]
  {
    var d := DefaultNames();
    assert AfterRun([]) == KeepFileText(d);
    KeepFileDoubles(d);
    DefaultLines();
    Twice(Lines(d));
  }

  lemma DefaultLines()
    ensures Lines(DefaultNames()) == ["pacman", "glibc"]
  {
    var d := DefaultNames();
    assert Lines(d) == [Key(d[0])] + Lines(d[1..]);
    assert Lines(d[1..]) == [Key(d[1])] + Lines(d[1..][1..]);
  }

  lemma Twice(l: seq<string>)
    requires l == ["pacman", "glibc"]
    ensures l + l == ["pacman", "glibc", "pacman", "glibc"]
  {
  }

  /** The seeded defaults, written at exit, are read back unchanged by the next run. */
  lemma DefaultsPersist()
    ensures '\0' !in KeepFileText(DefaultNames())
    ensures Lines(KeepNames(KeepFileText(DefaultNames()))) == ["pacman", "glibc"]
  {
    var d := DefaultNames();
    KeepListRoundTrip(d);
    assert Lines(d) == [Key(d[0])] + Lines(d[1..]);
    assert Lines(d[1..]) == [Key(d[1])] + Lines(d[1..][1..]);
  }

  /**
    A name of exactly `LineMax` characters does not survive the round trip: `fgets` fills
    the buffer before it reaches the newline, and the newline comes back as an empty name.
  */
  lemma LongNameSplits(s: seq<char>)
    requires |s| == LineMax && '\n' !in s && '\0' !in s
    ensures Lines(ReadNames(s + "\n")) == [s, ""]
  {
    FullLine(s);
    var b := NewlineAlone();
    var a := UnbrokenName(s);
    LinesOfTwo(a, b);
  }

  /** A piece without a newline becomes a name with exactly its text. */
  lemma UnbrokenName(s: seq<char>) returns (a: PkgName)
    requires s != [] && '\n' !in s && '\0' !in s
    ensures a == LineName(s) && Key(a) == s
  {
    a := LineName(s);
    assert s[|s| - 1] in s;
  }

  /** A line holding only a newline is read as the empty name. */
  lemma NewlineAlone() returns (b: PkgName)
    ensures ReadNames("\n") == [b] && Key(b) == ""
  {
    b := LineName("\n");
    assert ChunkLen("\n") == 1;
    assert "\n"[..1] == "\n" && "\n"[1..] == [];
    assert Key(b) + "\n" == "\n";
  }

  lemma LinesOfTwo(a: PkgName, b: PkgName)
    ensures Lines([a, b]) == [Key(a), Key(b)]
  {
    assert [a, b][1..] == [b];
    assert [b][1..] == [];
  }

  /** `fgets` stops a line of `LineMax` characters before its newline. */
  lemma FullLine(s: seq<char>)
    requires |s| == LineMax && '\n' !in s && '\0' !in s
    ensures ReadNames(s + "\n") == [LineName(s)] + ReadNames("\n")
  {
    var t := s + "\n";
    assert ChunkLen(t) == LineMax;
    assert t[..LineMax] == s && t[LineMax..] == "\n";
  }
}

=== FILE: namelists.dfy ===
/**
  `pkg_name_list_t` (main.c:109-148): a growable array of package names whose capacity
  doubles when it is full. `pkg_name_new` appends an empty name and hands back its slot,
  which the caller then fills.
*/
module NameLists {
  import opened PkgNames

  /** The name `pkg_name_new` leaves in a fresh slot: an empty text, size 1 for the NUL. */
  const EmptyName := PkgName(['\0'], 1)

  class PkgNameList {
    var names: array<PkgName>
    var size: nat
    var capacity: nat
    ghost var Repr: set<object>

    ghost predicate Valid()
      reads this, Repr
    {
      Repr == {this, names} && names.Length == capacity && 1 <= capacity && size <= capacity
    }

    /** The names currently in the list, in order. */
    ghost function Contents(): seq<PkgName>
      reads this, names
      requires size <= names.Length
    {
      names[..size]
    }

    /** pkg_name_list_new (main.c:116-123). */
    constructor (initialCapacity: nat)
      requires 1 <= initialCapacity
      ensures Valid() && fresh(Repr)
      ensures capacity == initialCapacity && Contents() == []
    {
      names := new PkgName[initialCapacity](_ => EmptyName);
      size := 0;
      capacity := initialCapacity;
      Repr := {this, names};
    }

    /**
      pkg_name_new (main.c:126-141): doubles the capacity when the list is full, then
      appends an empty name and returns its index.
    */
    method NewName() returns (k: nat)
      requires Valid()
      modifies Repr
      ensures Valid() && fresh(Repr - old(Repr))
      ensures k == old(size) && Contents() == old(Contents()) + [EmptyName]
      ensures capacity == if old(size) >= old(capacity) then 2 * old(capacity) else old(capacity)
    {
      if size >= capacity {
        capacity := capacity * 2;
        var grown := new PkgName[capacity](_ => EmptyName);
        forall i | 0 <= i < names.Length {
          grown[i] := names[i];
        }
        assert grown[..size] == names[..size];
        names := grown;
        Repr := {this, names};
      }
      names[size] := EmptyName;
      k := size;
      size := size + 1;
    }

    /** Writes through the pointer `pkg_name_new` returned (main.c:467, 474-479, 488, 514). */
    method Set(k: nat, n: PkgName)
      requires Valid() && k < size
      modifies names
      ensures Valid() && Contents() == old(Contents())[k := n]
    {
      names[k] := n;
    }

    /** `list->size--` (main.c:470): forgets the last name. */
    method DropLast()
      requires Valid() && 1 <= size
      modifies this
      ensures Valid() && Contents() == old(Contents())[..old(size) - 1]
      ensures names == old(names) && capacity == old(capacity)
    {
      size := size - 1;
    }

    /** Reads the name in slot `k`. */
    function Get(k: nat): (n: PkgName)
      reads this, names
      requires Valid() && k < size
      ensures n == Contents()[k]
    {
      names[k]
    }
  }
}

=== FILE: namesets.dfy ===
/**
  `name_set_t` (main.c:185-317): an open-addressing hash set of package names with djb2
  hashing, linear probing and a power-of-two capacity that doubles when the set gets half
  full. Insertion (`linear_probe_insert`) probes towards the end of the array and does not
  wrap around; lookup (`name_set_has`) wraps. The table is first described by functions on
  `seq<Item>` (what one insertion, one rehash, one lookup do), then by the class that
  updates an array in place and is proved equal to them.
*/
module NameSets {
  import opened Options
  import opened CStrings
  import opened PkgNames

  /** `name_set_item_t` (main.c:188-193). */
  datatype Item = Item(hashValue: nat, pkgName: PkgName, isTaken: bool)

  /** A slot as `calloc` leaves it. */
  const Vacant := Item(0, PkgName([], 0), false)

  /** `name_set_new` starts with four slots (main.c:220). */
  const InitialCapacity: nat := 4

  predicate IsPow2(n: nat)
  {
    n == 1 || (n >= 2 && n % 2 == 0 && IsPow2(n / 2))
  }

  lemma Pow2Double(n: nat)
    requires IsPow2(n)
    ensures IsPow2(2 * n)
  {
    assert (2 * n) / 2 == n;
  }

  /** `hash_value & (capacity - 1)`; for a power-of-two capacity this is the remainder. */
  function Home(h: nat, capacity: nat): (r: nat)
    requires capacity > 0
    ensures r < capacity
  {
    h % capacity
  }

  /** The first vacant slot at `i` or later, without wrapping (the loop of main.c:231-240). */
  function FirstFree(s: seq<Item>, i: nat): (r: Option<nat>)
    decreases |s| - i
    ensures r.Some? ==> i <= r.value < |s| && !s[r.value].isTaken
    ensures r.Some? ==> forall j :: i <= j < r.value ==> s[j].isTaken
    ensures r.None? ==> forall j :: i <= j < |s| ==> s[j].isTaken
  {
    if i >= |s| then None else if !s[i].isTaken then Some(i) else FirstFree(s, i + 1)
  }

  /** linear_probe_insert (main.c:226-241) on the table's contents. */
  function ProbeInsert(s: seq<Item>, n: PkgName, h: nat): (r: seq<Item>)
    requires |s| > 0
    ensures |r| == |s|
  {
    match FirstFree(s, Home(h, |s|))
    case None => s
    case Some(k) => s[k := Item(h, n, true)]
  }

  /** Whether linear_probe_insert finds a slot for hash `h`: a vacancy between home and end. */
  predicate Stores(s: seq<Item>, h: nat)
    requires |s| > 0
  {
    FirstFree(s, Home(h, |s|)).Some?
  }

  function Vacancies(c: nat): (r: seq<Item>)
    ensures |r| == c && forall k :: 0 <= k < c ==> r[k] == Vacant
  {
    seq(c, _ => Vacant)
  }

  /**
    The rehash loop of name_set_add_cpy (main.c:252-259): the taken slots among the first
    `i` old slots, in index order, probed into a fresh table of `c` slots.
  */
  function Rehash(s: seq<Item>, i: nat, c: nat): (r: seq<Item>)
    requires i <= |s| && c > 0
    ensures |r| == c
  {
    if i == 0 then Vacancies(c)
    else
      var t := Rehash(s, i - 1, c);
      if s[i - 1].isTaken then ProbeInsert(t, s[i - 1].pkgName, s[i - 1].hashValue) else t
  }

  /** The table name_set_add_cpy probes into once `size` has been incremented (main.c:245-262). */
  function Resized(s: seq<Item>, size: nat): (r: seq<Item>)
    requires |s| > 0
    ensures |r| == if size + 1 >= |s| / 2 then 2 * |s| else |s|
  {
    if size + 1 >= |s| / 2 then Rehash(s, |s|, 2 * |s|) else s
  }

  /** The test name_set_has applies to a taken slot (main.c:303). */
  predicate Matches(it: Item, h: nat, n: PkgName)
    requires Sized(n)
  {
    it.isTaken && it.hashValue == h && Sized(it.pkgName) && NameEq(it.pkgName, n)
  }

  /** Some taken slot holds hash `h` and a name equal to `n`. */
  predicate Finds(s: seq<Item>, n: PkgName, h: nat)
    requires Sized(n)
  {
    exists k :: 0 <= k < |s| && Matches(s[k], h, n)
  }

  /** The indices of the taken slots. */
  function TakenSlots(s: seq<Item>): set<nat>
  {
    set k: nat | k < |s| && s[k].isTaken
  }

  /** The texts of the names held in taken slots. */
  function KeysOf(s: seq<Item>): set<seq<char>>
  {
    if s == [] then {}
    else
      var last := s[|s| - 1];
      KeysOf(s[..|s| - 1]) + (if last.isTaken then {Key(last.pkgName)} else {})
  }

  /** A text is a key exactly when some taken slot holds it. */
  lemma {:induction false} KeysOfMembers(s: seq<Item>)
    ensures forall x :: x in KeysOf(s) <==> exists k: nat :: k < |s| && s[k].isTaken && x == Key(s[k].pkgName)
  {
    if s != [] {
      var p := s[..|s| - 1];
      KeysOfMembers(p);
      forall x ensures x in KeysOf(s) <==> exists k: nat :: k < |s| && s[k].isTaken && x == Key(s[k].pkgName) {
        if x in KeysOf(p) {
          var k: nat :| k < |p| && p[k].isTaken && x == Key(p[k].pkgName);
          assert s[k] == p[k];
        }
        if exists k: nat :: k < |s| && s[k].isTaken && x == Key(s[k].pkgName) {
          var k: nat :| k < |s| && s[k].isTaken && x == Key(s[k].pkgName);
          if k < |p| {
            assert s[k] == p[k];
          }
        }
      }
    }
  }

  /** No text is held twice. */
  ghost predicate UniqueKeys(s: seq<Item>)
  {
    forall a, b :: 0 <= a < b < |s| && s[a].isTaken && s[b].isTaken ==>
      Key(s[a].pkgName) != Key(s[b].pkgName)
  }

  /**
    The probing invariant of an insert-only table without wrap-around: a taken slot lies at
    or after the home of its hash, and every slot from that home to it is taken.
  */
  ghost predicate Chained(s: seq<Item>)
  {
    |s| > 0 &&
    forall k :: 0 <= k < |s| && s[k].isTaken ==>
      Home(s[k].hashValue, |s|) <= k && forall j :: Home(s[k].hashValue, |s|) <= j <= k ==> s[j].isTaken
  }

  /** A stored name is well formed and its slot records its djb2 hash. */
  ghost predicate GoodItem(it: Item)
  {
    WellFormed(it.pkgName) && it.hashValue == HashOf(Key(it.pkgName))
  }

  ghost predicate Hashed(s: seq<Item>)
  {
    forall k {:trigger GoodItem(s[k])} :: 0 <= k < |s| && s[k].isTaken ==> GoodItem(s[k])
  }

  // ---------------------------------------------------------------------------------
  // Arithmetic on slot indices

  lemma MulAtLeast(a: int, c: int)
    requires a >= 1 && c > 0
    ensures a * c >= c
  {
    assert a * c == (a - 1) * c + c;
  }

  /** Division with remainder is unique. */
  lemma ModOf(x: int, c: int, q: int, r: int)
    requires c > 0 && x == q * c + r && 0 <= r < c
    ensures x % c == r
  {
    var q', r' := x / c, x % c;
    assert x == q' * c + r';
    assert (q - q') * c == r' - r;
    if q > q' {
      MulAtLeast(q - q', c);
    } else if q < q' {
      MulAtLeast(q' - q, c);
    }
  }

  /** Doubling the capacity moves a home index by 0 or by the old capacity. */
  lemma ModDouble(h: nat, c: nat)
    requires c > 0
    ensures Home(h, 2 * c) == Home(h, c) || Home(h, 2 * c) == Home(h, c) + c
  {
    var q, r := h / (2 * c), h % (2 * c);
    assert h == (2 * q) * c + r;
    if r < c {
      ModOf(h, c, 2 * q, r);
    } else {
      assert h == (2 * q + 1) * c + (r - c);
      ModOf(h, c, 2 * q + 1, r - c);
    }
  }

  /** The slot name_set_has looks at after `j` steps from `start`, wrapping at `c`. */
  function Slot(start: nat, j: nat, c: nat): (r: nat)
    requires c > 0
    ensures r < c
  {
    (start + j) % c
  }

  lemma SlotNext(start: nat, j: nat, c: nat)
    requires c > 0
    ensures Slot(start, j + 1, c) == if Slot(start, j, c) + 1 >= c then 0 else Slot(start, j, c) + 1
  {
    var q, r := (start + j) / c, (start + j) % c;
    assert start + j == q * c + r;
    if r + 1 < c {
      ModOf(start + j + 1, c, q, r + 1);
    } else {
      assert start + j + 1 == (q + 1) * c + 0;
      ModOf(start + j + 1, c, q + 1, 0);
    }
  }

  lemma SlotNoWrap(start: nat, j: nat, c: nat)
    requires c > 0
    ensures start + j < c ==> Slot(start, j, c) == start + j
  {
    if start + j < c {
      ModOf(start + j, c, 0, start + j);
    }
  }

  /** Every slot `v` is reached from `start < c` within `c` steps. */
  lemma SlotReaches(start: nat, v: nat, c: nat) returns (j: nat)
    requires start < c && v < c
    ensures j < c && Slot(start, j, c) == v
  {
    if v >= start {
      j := v - start;
      ModOf(start + j, c, 0, v);
    } else {
      j := v + c - start;
      ModOf(start + j, c, 1, v);
    }
  }

  // ---------------------------------------------------------------------------------
  // Counting slots

  function Range(n: nat): (r: set<nat>)
    ensures forall k: nat :: k in r <==> k < n
  {
    if n == 0 then {} else Range(n - 1) + {n - 1}
  }

  lemma {:induction false} RangeCard(n: nat)
    ensures |Range(n)| == n
  {
    if n > 0 {
      RangeCard(n - 1);
    }
  }

  /** Fewer taken slots than slots: some slot is vacant. */
  lemma VacancyExists(s: seq<Item>)
    requires |TakenSlots(s)| < |s|
    ensures exists v :: 0 <= v < |s| && !s[v].isTaken
  {
    RangeCard(|s|);
    assert TakenSlots(s) <= Range(|s|);
    assert TakenSlots(s) != Range(|s|);
    var v :| v in Range(|s|) && v !in TakenSlots(s);
  }

  /** Extending a prefix by slot `i - 1`. */
  lemma TakenSlotsPrefix(s: seq<Item>, i: nat)
    requires 0 < i <= |s|
    ensures |TakenSlots(s[..i])| == |TakenSlots(s[..i - 1])| + (if s[i - 1].isTaken then 1 else 0)
    ensures KeysOf(s[..i]) == KeysOf(s[..i - 1]) + (if s[i - 1].isTaken then {Key(s[i - 1].pkgName)} else {})
  {
    PrefixSlots(s[..i], s[..i - 1]);
    PrefixKeys(s[..i], s[..i - 1]);
  }

  lemma PrefixSlots(a: seq<Item>, b: seq<Item>)
    requires |a| == |b| + 1 && b == a[..|b|]
    ensures TakenSlots(a) == TakenSlots(b) + (if a[|b|].isTaken then {|b|} else {})
  {
    assert forall k :: 0 <= k < |b| ==> a[k] == b[k];
  }

  lemma PrefixKeys(a: seq<Item>, b: seq<Item>)
    requires |a| == |b| + 1 && b == a[..|b|]
    ensures KeysOf(a) == KeysOf(b) + (if a[|b|].isTaken then {Key(a[|b|].pkgName)} else {})
  {
    assert a[..|a| - 1] == b;
  }

  // ---------------------------------------------------------------------------------
  // What one insertion does

  /** linear_probe_insert stores exactly when some slot between home and end is vacant. */
  lemma StoresIffVacancyAfterHome(s: seq<Item>, h: nat)
    requires |s| > 0
    ensures Stores(s, h) <==> exists v :: Home(h, |s|) <= v < |s| && !s[v].isTaken
  {
    if Stores(s, h) {
      var v := FirstFree(s, Home(h, |s|)).value;
      assert Home(h, |s|) <= v < |s| && !s[v].isTaken;
    }
  }

  /**
    Membership after insertion: the inserted name is found (name_set_has's test) when the
    probe stored it, and the table is left untouched when it did not.
  */
  lemma ProbeInsertFinds(s: seq<Item>, n: PkgName, h: nat)
    requires |s| > 0 && Sized(n)
    ensures Stores(s, h) ==> Finds(ProbeInsert(s, n, h), n, h)
    ensures !Stores(s, h) ==> ProbeInsert(s, n, h) == s
  {
    if Stores(s, h) {
      var k := FirstFree(s, Home(h, |s|)).value;
      NameEqIsEquivalence(n, n, n);
      assert Matches(ProbeInsert(s, n, h)[k], h, n);
    }
  }

  lemma ProbeInsertCounts(s: seq<Item>, n: PkgName, h: nat)
    requires |s| > 0
    ensures |TakenSlots(ProbeInsert(s, n, h))| == |TakenSlots(s)| + (if Stores(s, h) then 1 else 0)
    ensures KeysOf(ProbeInsert(s, n, h)) == KeysOf(s) + (if Stores(s, h) then {Key(n)} else {})
  {
    if Stores(s, h) {
      var k := FirstFree(s, Home(h, |s|)).value;
      var r := ProbeInsert(s, n, h);
      assert r == s[k := Item(h, n, true)];
      assert TakenSlots(r) == TakenSlots(s) + {k};
      ProbeInsertKeys(s, k, Item(h, n, true));
    }
  }

  /** Filling the vacant slot `k` adds exactly the new item's text to the keys. */
  lemma ProbeInsertKeys(s: seq<Item>, k: nat, it: Item)
    requires k < |s| && !s[k].isTaken && it.isTaken
    ensures KeysOf(s[k := it]) == KeysOf(s) + {Key(it.pkgName)}
  {
    var r := s[k := it];
    KeysOfMembers(r);
    KeysOfMembers(s);
    forall x | x in KeysOf(r) ensures x in KeysOf(s) + {Key(it.pkgName)} {
      var j: nat :| j < |r| && r[j].isTaken && x == Key(r[j].pkgName);
      if j != k {
        assert r[j] == s[j];
      }
    }
    forall x | x in KeysOf(s) + {Key(it.pkgName)} ensures x in KeysOf(r) {
      if x in KeysOf(s) {
        var j: nat :| j < |s| && s[j].isTaken && x == Key(s[j].pkgName);
        assert j != k && r[j] == s[j];
      } else {
        assert r[k].isTaken && x == Key(r[k].pkgName);
      }
    }
  }

  lemma ProbeInsertKeepsInvariants(s: seq<Item>, n: PkgName, h: nat)
    requires |s| > 0
    ensures Chained(s) ==> Chained(ProbeInsert(s, n, h))
    ensures Hashed(s) && GoodItem(Item(h, n, true)) ==> Hashed(ProbeInsert(s, n, h))
    ensures UniqueKeys(s) && Key(n) !in KeysOf(s) ==> UniqueKeys(ProbeInsert(s, n, h))
    ensures Stores(s, h) && Key(n) in KeysOf(s) ==> !UniqueKeys(ProbeInsert(s, n, h))
  {
    if Stores(s, h) {
      var f := FirstFree(s, Home(h, |s|)).value;
      var r := ProbeInsert(s, n, h);
      assert r == s[f := Item(h, n, true)];
      KeysOfMembers(s);
      if Key(n) in KeysOf(s) {
        var j: nat :| j < |s| && s[j].isTaken && Key(n) == Key(s[j].pkgName);
        assert j != f && r[j] == s[j];
        if j < f {
          assert r[j].isTaken && r[f].isTaken && Key(r[j].pkgName) == Key(r[f].pkgName);
        } else {
          assert r[f].isTaken && r[j].isTaken && Key(r[f].pkgName) == Key(r[j].pkgName);
        }
      }
      if UniqueKeys(s) && Key(n) !in KeysOf(s) {
        forall a, b | 0 <= a < b < |r| && r[a].isTaken && r[b].isTaken
          ensures Key(r[a].pkgName) != Key(r[b].pkgName)
        {
          if a == f {
            assert s[b].isTaken && Key(s[b].pkgName) in KeysOf(s);
          } else if b == f {
            assert s[a].isTaken && Key(s[a].pkgName) in KeysOf(s);
          }
        }
      }
    }
  }

  /**
    The defect of main.c:231, reached from `name_set_new`. The texts "b" and "j" both have a
    djb2 hash of 7 modulo 8. "b" goes to slot 3 of the four-slot table. Adding "j" makes the
    size 2, so the table doubles and "b" moves to slot 7, the last one. "j" then finds no
    vacancy between its home 7 and the end, although seven slots are free: the insertion is
    lost and the wrapping lookup does not find "j".
  */
  lemma LostAtEndOfTable()
    ensures var s1 := ProbeInsert(Resized(Vacancies(InitialCapacity), 0), MakeName("b"), HashOf("b"));
            var s2 := Resized(s1, 1);
            |s2| == 8 && Key(MakeName("b")) in KeysOf(s2) && !Stores(s2, HashOf("j")) &&
            ProbeInsert(s2, MakeName("j"), HashOf("j")) == s2 &&
            !Finds(ProbeInsert(s2, MakeName("j"), HashOf("j")), MakeName("j"), HashOf("j"))
  {
    var b, j := MakeName("b"), MakeName("j");
    assert "b"[..0] == [] && "j"[..0] == [];
    var hb, hj := HashOf("b"), HashOf("j");
    assert hb == 177671 && hj == 177679;
    var v4 := Vacancies(4);
    assert Resized(v4, 0) == v4;
    assert Home(hb, 4) == 3 && FirstFree(v4, 3) == Some(3);
    var s1 := v4[3 := Item(hb, b, true)];
    assert ProbeInsert(v4, b, hb) == s1;
    var v8 := Vacancies(8);
    assert Rehash(s1, 1, 8) == v8;
    assert Rehash(s1, 2, 8) == v8;
    assert Rehash(s1, 3, 8) == v8;
    assert Home(hb, 8) == 7 && FirstFree(v8, 7) == Some(7);
    var s2 := v8[7 := Item(hb, b, true)];
    assert Resized(s1, 1) == s2;
    assert Home(hj, 8) == 7 && FirstFree(s2, 7) == FirstFree(s2, 8);
    forall k | 0 <= k < |s2| ensures !Matches(s2[k], hj, j) {
      if k != 7 {
        assert s2[k] == Vacant;
      }
    }
    KeysOfMembers(s2);
    assert s2[7].isTaken && Key(b) == Key(s2[7].pkgName);
  }

  // ---------------------------------------------------------------------------------
  // Rehashing never loses an entry

  /** After re-inserting old slots [0, i), taken new slots lie in [0, i) or [c, c + i). */
  ghost predicate Placed(t: seq<Item>, i: nat, c: nat)
  {
    forall k :: 0 <= k < |t| && t[k].isTaken ==> k < i || c <= k < c + i
  }

  lemma RehashStep(s: seq<Item>, i: nat)
    requires Chained(s) && i < |s|
    requires Placed(Rehash(s, i, 2 * |s|), i, |s|)
    ensures s[i].isTaken ==> Stores(Rehash(s, i, 2 * |s|), s[i].hashValue)
    ensures Placed(Rehash(s, i + 1, 2 * |s|), i + 1, |s|)
  {
    var c := |s|;
    var t := Rehash(s, i, 2 * c);
    if s[i].isTaken {
      var h := s[i].hashValue;
      assert Home(h, c) <= i;
      ModDouble(h, c);
      var home := Home(h, 2 * c);
      var target := if home < c then i else i + c;
      assert home <= target < 2 * c;
      assert !t[target].isTaken;
      assert FirstFree(t, home).Some?;
      var f := FirstFree(t, home).value;
      assert f <= target;
      var t' := Rehash(s, i + 1, 2 * c);
      assert t' == t[f := Item(h, s[i].pkgName, true)];
      forall k | 0 <= k < |t'| && t'[k].isTaken ensures k < i + 1 || c <= k < c + i + 1 {
        if k != f {
          assert t[k].isTaken;
        }
      }
    }
  }

  lemma {:induction false} RehashPlaced(s: seq<Item>, i: nat)
    requires Chained(s) && i <= |s|
    ensures Placed(Rehash(s, i, 2 * |s|), i, |s|)
  {
    if i > 0 {
      RehashPlaced(s, i - 1);
      RehashStep(s, i - 1);
    }
  }

  /** The first `i` old slots are all re-inserted: same number of taken slots, same texts. */
  lemma {:induction false} RehashCounts(s: seq<Item>, i: nat)
    requires Chained(s) && i <= |s|
    ensures |TakenSlots(Rehash(s, i, 2 * |s|))| == |TakenSlots(s[..i])|
    ensures KeysOf(Rehash(s, i, 2 * |s|)) == KeysOf(s[..i])
  {
    var c := |s|;
    if i == 0 {
      EmptyCounts(s[..0]);
      EmptyCounts(Vacancies(2 * c));
    } else {
      RehashCounts(s, i - 1);
      RehashCountsStep(s, i - 1);
      TakenSlotsPrefix(s, i);
    }
  }

  lemma RehashCountsStep(s: seq<Item>, i: nat)
    requires Chained(s) && i < |s|
    ensures |TakenSlots(Rehash(s, i + 1, 2 * |s|))|
         == |TakenSlots(Rehash(s, i, 2 * |s|))| + (if s[i].isTaken then 1 else 0)
    ensures KeysOf(Rehash(s, i + 1, 2 * |s|))
         == KeysOf(Rehash(s, i, 2 * |s|)) + (if s[i].isTaken then {Key(s[i].pkgName)} else {})
  {
    var c := |s|;
    var t := Rehash(s, i, 2 * c);
    if s[i].isTaken {
      var it := s[i];
      assert Rehash(s, i + 1, 2 * c) == ProbeInsert(t, it.pkgName, it.hashValue);
      RehashPlaced(s, i);
      RehashStep(s, i);
      ProbeInsertCounts(t, it.pkgName, it.hashValue);
    } else {
      assert Rehash(s, i + 1, 2 * c) == t;
    }
  }

  lemma EmptyCounts(s: seq<Item>)
    requires forall k :: 0 <= k < |s| ==> !s[k].isTaken
    ensures TakenSlots(s) == {} && KeysOf(s) == {}
  {
    KeysOfMembers(s);
  }

  /** Rehashing keeps the probing chains and the recorded hashes. */
  lemma {:induction false} RehashInvariants(s: seq<Item>, i: nat)
    requires Chained(s) && i <= |s|
    ensures Chained(Rehash(s, i, 2 * |s|))
    ensures Hashed(s) ==> Hashed(Rehash(s, i, 2 * |s|))
  {
    if i > 0 {
      RehashInvariants(s, i - 1);
      if s[i - 1].isTaken {
        var it := s[i - 1];
        ProbeInsertKeepsInvariants(Rehash(s, i - 1, 2 * |s|), it.pkgName, it.hashValue);
      }
    }
  }

  /** Rehashing a table without repeated texts gives one without repeated texts. */
  lemma {:induction false} RehashUnique(s: seq<Item>, i: nat)
    requires Chained(s) && UniqueKeys(s) && i <= |s|
    ensures UniqueKeys(Rehash(s, i, 2 * |s|))
  {
    if i > 0 {
      RehashUnique(s, i - 1);
      if s[i - 1].isTaken {
        var it := s[i - 1];
        RehashCounts(s, i - 1);
        UniquePrefixExcludes(s, i - 1);
        ProbeInsertKeepsInvariants(Rehash(s, i - 1, 2 * |s|), it.pkgName, it.hashValue);
      }
    }
  }

  lemma UniquePrefixExcludes(s: seq<Item>, i: nat)
    requires UniqueKeys(s) && i < |s| && s[i].isTaken
    ensures Key(s[i].pkgName) !in KeysOf(s[..i])
  {
    var p := s[..i];
    forall j: nat | j < |p| && p[j].isTaken ensures Key(p[j].pkgName) != Key(s[i].pkgName) {
      assert p[j] == s[j];
    }
    KeysOfMembers(p);
  }

  /** Without a repeated text, every taken slot holds a key of its own. */
  lemma {:induction false} UniqueCounts(s: seq<Item>, i: nat)
    requires UniqueKeys(s) && i <= |s|
    ensures |TakenSlots(s[..i])| == |KeysOf(s[..i])|
  {
    if i == 0 {
      EmptyCounts(s[..0]);
    } else {
      UniqueCounts(s, i - 1);
      TakenSlotsPrefix(s, i);
      if s[i - 1].isTaken {
        UniquePrefixExcludes(s, i - 1);
      }
    }
  }

  lemma RehashAll(s: seq<Item>)
    requires Chained(s)
    ensures Chained(Rehash(s, |s|, 2 * |s|))
    ensures |TakenSlots(Rehash(s, |s|, 2 * |s|))| == |TakenSlots(s)|
    ensures KeysOf(Rehash(s, |s|, 2 * |s|)) == KeysOf(s)
    ensures Hashed(s) ==> Hashed(Rehash(s, |s|, 2 * |s|))
    ensures UniqueKeys(s) ==> UniqueKeys(Rehash(s, |s|, 2 * |s|))
  {
    RehashCounts(s, |s|);
    RehashInvariants(s, |s|);
    if UniqueKeys(s) {
      RehashUnique(s, |s|);
    }
    assert s[..|s|] == s;
  }

  // ---------------------------------------------------------------------------------
  // What one lookup decides

  /** On a hashed table, name_set_has's test finds a well-formed name iff its text is held. */
  lemma FindsIffKey(s: seq<Item>, n: PkgName)
    requires Hashed(s) && WellFormed(n)
    ensures Finds(s, n, HashOf(Key(n))) <==> Key(n) in KeysOf(s)
  {
    KeysOfMembers(s);
    if Finds(s, n, HashOf(Key(n))) {
      var k :| 0 <= k < |s| && Matches(s[k], HashOf(Key(n)), n);
      assert GoodItem(s[k]);
      NameEqIsKeyEq(s[k].pkgName, n);
      assert Key(n) == Key(s[k].pkgName);
    }
    if Key(n) in KeysOf(s) {
      var k: nat :| k < |s| && s[k].isTaken && Key(n) == Key(s[k].pkgName);
      assert GoodItem(s[k]);
      NameEqIsKeyEq(s[k].pkgName, n);
      assert Matches(s[k], HashOf(Key(n)), n);
    }
  }

  /** A wrapping probe from home that met a vacancy after `steps` non-matching taken slots
      has passed every slot a chained table could hold the name in. */
  lemma ProbeMissMeansAbsent(s: seq<Item>, n: PkgName, h: nat, steps: nat)
    requires Chained(s) && Sized(n)
    requires !s[Slot(Home(h, |s|), steps, |s|)].isTaken
    requires forall j :: 0 <= j < steps ==> !Matches(s[Slot(Home(h, |s|), j, |s|)], h, n)
    ensures !Finds(s, n, h)
  {
    var home := Home(h, |s|);
    forall k | 0 <= k < |s| && s[k].isTaken && s[k].hashValue == h
      ensures !Matches(s[k], h, n)
    {
      SlotNoWrap(home, steps, |s|);
      assert home <= k;
      assert k - home < steps;
      SlotNoWrap(home, k - home, |s|);
    }
  }

  /** Probing `m` taken slots in a row from `start` while some slot is vacant: `m` < capacity. */
  lemma ProbeBounded(s: seq<Item>, start: nat, m: nat)
    requires start < |s|
    requires exists v :: 0 <= v < |s| && !s[v].isTaken
    requires forall j :: 0 <= j < m ==> s[Slot(start, j, |s|)].isTaken
    ensures m < |s|
  {
    var v :| 0 <= v < |s| && !s[v].isTaken;
    var j := SlotReaches(start, v, |s|);
    assert m <= j;
  }

  /** linear_probe_insert (main.c:226-241): in place on the array. */
  method LinearProbeInsert(items: array<Item>, capacity: nat, n: PkgName, h: nat)
    requires capacity == items.Length && capacity > 0
    modifies items
    ensures items[..] == ProbeInsert(old(items[..]), n, h)
  {
    var index := h % capacity;
    while index < capacity
      invariant Home(h, capacity) <= index <= capacity
      invariant items[..] == old(items[..])
      invariant FirstFree(items[..], Home(h, capacity)) == FirstFree(items[..], index)
      decreases capacity - index
    {
      if !items[index].isTaken {
        items[index] := Item(h, n, true);
        return;
      }
      index := index + 1;
    }
  }

  /** The rehash loop of name_set_add_cpy (main.c:246-258): a fresh table of twice the
      capacity, into which the old taken slots are probed in index order. */
  method Rehashed(items: array<Item>) returns (newItems: array<Item>)
    requires items.Length > 0
    ensures fresh(newItems)
    ensures newItems[..] == Rehash(items[..], items.Length, 2 * items.Length)
  {
    var capacity := 2 * items.Length;
    newItems := new Item[capacity](_ => Vacant);
    assert newItems[..] == Vacancies(capacity);
    for i := 0 to items.Length
      invariant newItems[..] == Rehash(items[..], i, capacity)
    {
      if items[i].isTaken {
        LinearProbeInsert(newItems, capacity, items[i].pkgName, items[i].hashValue);
      }
    }
  }

  /** The probe loop of name_set_has (main.c:300-316): from the home slot, wrapping at
      the end, until a matching slot or a vacant one. */
  method ProbeLookup(items: array<Item>, n: PkgName, h: nat) returns (found: bool)
    requires items.Length > 0 && Sized(n) && Chained(items[..])
    requires forall k :: 0 <= k < items.Length && items[k].isTaken ==> Sized(items[k].pkgName)
    requires exists v :: 0 <= v < items.Length && !items[v].isTaken
    ensures found == Finds(items[..], n, h)
  {
    ghost var s := items[..];
    var capacity := items.Length;
    var index := h % capacity;
    ghost var home := index;
    ghost var steps: nat := 0;
    SlotNoWrap(home, 0, capacity);
    while items[index].isTaken
      invariant steps < capacity
      invariant index == Slot(home, steps, capacity)
      invariant forall j :: 0 <= j < steps ==> s[Slot(home, j, capacity)].isTaken
      invariant forall j :: 0 <= j < steps ==> !Matches(s[Slot(home, j, capacity)], h, n)
      decreases capacity - steps
    {
      if items[index].hashValue == h {
        var eq := PkgNameEql(items[index].pkgName, n);
        if eq {
          assert Matches(s[index], h, n);
          return true;
        }
      }
      SlotNext(home, steps, capacity);
      index := index + 1;
      if index >= capacity {
        index := 0;
      }
      steps := steps + 1;
      ProbeBounded(s, home, steps);
    }
    ProbeMissMeansAbsent(s, n, h, steps);
    return false;
  }

  /**
    What the slots of a table guarantee: every probing chain is intact, every recorded hash
    is its name's, `keys` are the texts held and, when `distinct`, none is held twice.
  */
  ghost predicate Indexes(s: seq<Item>, keys: set<seq<char>>, distinct: bool)
  {
    Chained(s) && Hashed(s) && keys == KeysOf(s) && (distinct ==> UniqueKeys(s))
  }

  /** `name_set_t` (main.c:195-200). */
  class NameSet {
    var items: array<Item>
    var size: nat
    var capacity: nat
    /** How many insertions found no vacancy between their home and the end of the array. */
    ghost var dropped: nat
    /** The texts of the names the set holds. */
    ghost var keys: set<seq<char>>
    /** Set while no text has been stored twice. */
    ghost var distinct: bool
    ghost var Repr: set<object>

    /** The array and its probing invariants, whatever the counters say. */
    ghost predicate Table()
      reads this, Repr
    {
      Repr == {this, items} &&
      items.Length == capacity && InitialCapacity <= capacity && IsPow2(capacity) &&
      Indexes(items[..], keys, distinct)
    }

    /** `size` counts every insertion: those that were stored and those that were lost. */
    ghost predicate Valid()
      reads this, Repr
    {
      Table() && size < capacity / 2 && size == |TakenSlots(items[..])| + dropped
    }

    /** Without a repeated text, `size` counts each key once plus the lost insertions. */
    lemma CountsKeys()
      requires Valid() && distinct
      ensures size == |keys| + dropped
    {
      UniqueCounts(items[..], items.Length);
      assert items[..][..items.Length] == items[..];
    }

    /** name_set_new (main.c:217-224). */
    constructor ()
      ensures Valid() && fresh(Repr)
      ensures capacity == InitialCapacity && size == 0 && dropped == 0
      ensures keys == {} && distinct
      ensures items[..] == Vacancies(InitialCapacity)
    {
      items := new Item[InitialCapacity](_ => Vacant);
      capacity := InitialCapacity;
      size := 0;
      dropped := 0;
      keys := {};
      distinct := true;
      Repr := {this, items};
      new;
      assert IsPow2(2) && IsPow2(4);
      assert items[..] == Vacancies(4);
      EmptyCounts(items[..]);
    }

    /**
      name_set_add_cpy (main.c:243-266): counts the name, doubles and rehashes the table
      when the new size reaches half the capacity, then probes the name in. It does not
      check whether the name is already there, and the probe may find no slot.
    */
    method AddCpy(n: PkgName) returns (ghost stored: bool)
      requires Valid() && WellFormed(n)
      modifies Repr
      ensures Valid() && fresh(Repr - old(Repr))
      ensures size == old(size) + 1
      ensures capacity == if old(size) + 1 >= old(capacity) / 2 then 2 * old(capacity) else old(capacity)
      ensures items[..] == ProbeInsert(Resized(old(items[..]), old(size)), n, HashOf(Key(n)))
      ensures stored == Stores(Resized(old(items[..]), old(size)), HashOf(Key(n)))
      ensures keys == old(keys) + (if stored then {Key(n)} else {})
      ensures dropped == old(dropped) + (if stored then 0 else 1)
      ensures distinct == (old(distinct) && !(stored && Key(n) in old(keys)))
    {
      size := size + 1;
      if size >= capacity / 2 {
        Grow();
      }
      var h := Hash(n.name);
      stored := ProbeIn(n, h);
    }

    /** The insertion step of name_set_add_cpy (main.c:264-265) with the ghost bookkeeping:
        a lost insertion is counted in `dropped`. */
    method ProbeIn(n: PkgName, h: nat) returns (ghost stored: bool)
      requires Table() && GoodItem(Item(h, n, true))
      modifies this, items
      ensures Table() && items == old(items) && capacity == old(capacity) && size == old(size)
      ensures items[..] == ProbeInsert(old(items[..]), n, h)
      ensures stored == Stores(old(items[..]), h)
      ensures |TakenSlots(items[..])| == old(|TakenSlots(items[..])|) + (if stored then 1 else 0)
      ensures keys == old(keys) + (if stored then {Key(n)} else {})
      ensures dropped == old(dropped) + (if stored then 0 else 1)
      ensures distinct == (old(distinct) && !(stored && Key(n) in old(keys)))
    {
      ghost var s1 := items[..];
      LinearProbeInsert(items, capacity, n, h);
      stored := Stores(s1, h);
      ProbeInsertCounts(s1, n, h);
      ProbeInsertKeepsInvariants(s1, n, h);
      dropped := dropped + (if stored then 0 else 1);
      keys := keys + (if stored then {Key(n)} else {});
      distinct := distinct && !(stored && Key(n) in old(keys));
    }

    /** The growth step of name_set_add_cpy (main.c:251-262): a table of twice the capacity,
        into which the old taken slots are probed in index order. */
    method Grow()
      requires Table()
      modifies this
      ensures Table() && fresh(items)
      ensures capacity == 2 * old(capacity)
      ensures items[..] == Rehash(old(items[..]), old(capacity), capacity)
      ensures |TakenSlots(items[..])| == old(|TakenSlots(items[..])|)
      ensures keys == old(keys) && distinct == old(distinct)
      ensures size == old(size) && dropped == old(dropped)
    {
      ghost var s0 := items[..];
      var newItems := Rehashed(items);
      RehashAll(s0);
      Pow2Double(capacity);
      ghost var r := Rehash(s0, |s0|, 2 * |s0|);
      assert Indexes(r, keys, distinct) && newItems[..] == r;
      capacity := capacity * 2;
      items := newItems;
      Repr := {this, items};
    }

    /** name_set_add_cpy_cstr (main.c:268-275). */
    method AddCpyCStr(str: seq<char>) returns (ghost stored: bool)
      requires Valid() && IsCName(str)
      modifies Repr
      ensures Valid() && fresh(Repr - old(Repr))
      ensures size == old(size) + 1
      ensures capacity == if old(size) + 1 >= old(capacity) / 2 then 2 * old(capacity) else old(capacity)
      ensures items[..] == ProbeInsert(Resized(old(items[..]), old(size)), MakeName(str), HashOf(str))
      ensures stored == Stores(Resized(old(items[..]), old(size)), HashOf(str))
      ensures keys == old(keys) + (if stored then {str} else {})
      ensures dropped == old(dropped) + (if stored then 0 else 1)
      ensures distinct == (old(distinct) && !(stored && str in old(keys)))
    {
      stored := AddCpy(MakeName(str));
    }

    /** name_set_has (main.c:296-317): probes from home, wrapping, until a vacant slot. */
    method Has(n: PkgName) returns (found: bool)
      requires Valid() && Sized(n)
      ensures found == Finds(items[..], n, HashOf(Key(n)))
    {
      var h := Hash(n.name);
      VacancyExists(items[..]);
      forall k | 0 <= k < items.Length && items[k].isTaken ensures Sized(items[k].pkgName) {
        assert GoodItem(items[..][k]);
      }
      found := ProbeLookup(items, n, h);
    }

    /** name_set_has_cstr (main.c:319-326): membership of a text. */
    method HasCStr(str: seq<char>) returns (found: bool)
      requires Valid() && IsCName(str)
      ensures found <==> str in keys
    {
      found := Has(MakeName(str));
      FindsIffKey(items[..], MakeName(str));
    }
  }

  /**
    The loss of `LostAtEndOfTable` through the set itself: `name_set_new`, then
    `name_set_add_cpy_cstr` of "b" and of "j", then `name_set_has_cstr` of "j".
  */
  method LostInsertionExample() returns (capacity: nat, found: bool)
    ensures capacity == 8 && !found
  {
    var nameSet := new NameSet();
    ghost var s0 := nameSet.items[..];
    ghost var storedB := nameSet.AddCpyCStr("b");
    ghost var s1 := nameSet.items[..];
    ghost var storedJ := nameSet.AddCpyCStr("j");
    LostAtEndOfTable();
    assert s1 == ProbeInsert(Resized(Vacancies(InitialCapacity), 0), MakeName("b"), HashOf("b"));
    assert !storedJ;
    found := nameSet.HasCStr("j");
    capacity := nameSet.capacity;
  }

  /**
    "A" and "B" are both kept. "A" has djb2 hash 177638: slot 2 of four, then slot 6 of
    eight after the doubling that adding "B" (hash 177639, home 7 of eight) causes.
  */
  lemma KeptAThenB()
    ensures var s1 := Resized(Vacancies(InitialCapacity), 0);
            Stores(s1, HashOf("A")) &&
            Stores(Resized(ProbeInsert(s1, MakeName("A"), HashOf("A")), 1), HashOf("B"))
  {
    var a := MakeName("A");
    assert "A"[..0] == [] && "B"[..0] == [];
    var ha, hb := HashOf("A"), HashOf("B");
    assert ha == 177638 && hb == 177639;
    var v4 := Vacancies(4);
    assert Resized(v4, 0) == v4;
    assert Home(ha, 4) == 2 && FirstFree(v4, 2) == Some(2);
    var s1 := v4[2 := Item(ha, a, true)];
    assert ProbeInsert(v4, a, ha) == s1;
    var v8 := Vacancies(8);
    assert Rehash(s1, 1, 8) == v8;
    assert Rehash(s1, 2, 8) == v8;
    assert Home(ha, 8) == 6 && FirstFree(v8, 6) == Some(6);
    var s2 := v8[6 := Item(ha, a, true)];
    assert Rehash(s1, 3, 8) == s2;
    assert Rehash(s1, 4, 8) == s2;
    assert Resized(s1, 1) == s2;
    assert Home(hb, 8) == 7 && FirstFree(s2, 7) == Some(7);
  }

  /**
    The insertions a walk from "A" makes when "A" and "B" depend on each other:
    `name_set_new`, then `name_set_add_cpy_cstr` of "A" and of "B". Neither is lost.
  */
  method KeptInsertionExample() returns (nameSet: NameSet)
    ensures nameSet.Valid() && nameSet.capacity == 8
    ensures nameSet.dropped == 0 && nameSet.keys == {"A", "B"} && nameSet.distinct
  {
    nameSet := new NameSet();
    ghost var storedA := nameSet.AddCpyCStr("A");
    ghost var storedB := nameSet.AddCpyCStr("B");
    KeptAThenB();
  }
}

=== FILE: options.dfy ===
/** The optional value used where the C code returns a pointer that may be NULL. */
module Options {
  datatype Option<+T> = None | Some(value: T)
}

=== FILE: pkgnames.dfy ===
/**
  `pkg_name_t` (main.c:103-107): a fixed buffer `name` and a `size` that is meant to be
  strlen(name) + 1. Equality (`pkg_name_eql`) and hashing (`hash`, djb2) of names.
*/
module PkgNames {
  import opened CStrings

  /** `name` is the buffer contents; `size` counts the text and its NUL terminator. */
  datatype PkgName = PkgName(name: seq<char>, size: int)

  /** The bytes `pkg_name_eql` may read lie inside the buffer. */
  predicate Sized(n: PkgName)
  {
    0 <= n.size <= |n.name|
  }

  /** `size` is exactly strlen(name) + 1, as every name built from a C string has it. */
  predicate WellFormed(n: PkgName)
  {
    1 <= n.size <= |n.name| && n.name[n.size - 1] == '\0' && '\0' !in n.name[..n.size - 1]
  }

  /** The text of a name: what `alpm_db_get_pkg`, `hash` and `fprintf` read from `name`. */
  function Key(n: PkgName): seq<char>
  {
    CStr(n.name)
  }

  /** A well-formed name's text is its first `size - 1` characters. */
  lemma WellFormedKey(n: PkgName)
    requires WellFormed(n)
    ensures Key(n) == n.name[..n.size - 1]
  {
    assert n.name == n.name[..n.size - 1] + ['\0'] + n.name[n.size..];
    CStrOfTerminated(n.name[..n.size - 1], n.name[n.size..]);
  }

  /**
    The name `name_set_add_cpy_cstr` and `name_set_has_cstr` build from a C string
    (main.c:270-272, 321-323): snprintf copies the text, size is strlen + 1.
  */
  function MakeName(s: seq<char>): (n: PkgName)
    requires IsCName(s)
    ensures WellFormed(n) && Key(n) == s && n.size == |s| + 1
  {
    CStrOfTerminated(s, []);
    assert (s + ['\0'])[..|s|] == s;
    PkgName(s + ['\0'], |s| + 1)
  }

  /** What `pkg_name_eql` decides: equal sizes and equal bytes in the first `size` positions. */
  predicate NameEq(a: PkgName, b: PkgName)
    requires Sized(a) && Sized(b)
  {
    a.size == b.size && a.name[..a.size] == b.name[..b.size]
  }

  /** pkg_name_eql (main.c:278-294). */
  method PkgNameEql(a: PkgName, b: PkgName) returns (r: bool)
    requires Sized(a) && Sized(b)
    ensures r <==> a.size == b.size && forall i :: 0 <= i < a.size ==> a.name[i] == b.name[i]
    ensures r == NameEq(a, b)
  {
    if a.size != b.size {
      return false;
    }
    var i := 0;
    while i < a.size && i < b.size
      invariant 0 <= i <= a.size
      invariant forall j :: 0 <= j < i ==> a.name[j] == b.name[j]
    {
      if a.name[i] != b.name[i] {
        return false;
      }
      i := i + 1;
    }
    assert a.name[..a.size] == b.name[..b.size];
    return true;
  }

  /** `pkg_name_eql` is an equivalence on names. */
  lemma NameEqIsEquivalence(a: PkgName, b: PkgName, c: PkgName)
    requires Sized(a) && Sized(b) && Sized(c)
    ensures NameEq(a, a)
    ensures NameEq(a, b) ==> NameEq(b, a)
    ensures NameEq(a, b) && NameEq(b, c) ==> NameEq(a, c)
  {
  }

  /** On well-formed names `pkg_name_eql` is exactly equality of the texts. */
  lemma NameEqIsKeyEq(a: PkgName, b: PkgName)
    requires WellFormed(a) && WellFormed(b)
    ensures NameEq(a, b) <==> Key(a) == Key(b)
  {
    WellFormedKey(a);
    WellFormedKey(b);
    if Key(a) == Key(b) {
      assert a.size == b.size;
      assert a.name[..a.size] == a.name[..a.size - 1] + ['\0'];
      assert b.name[..b.size] == b.name[..b.size - 1] + ['\0'];
    }
    if NameEq(a, b) {
      assert a.name[..a.size - 1] == a.name[..a.size][..a.size - 1];
      assert b.name[..b.size - 1] == b.name[..b.size][..b.size - 1];
    }
  }

  /**
    `snprintf(pkg_name_new(list)->name, ...)` (main.c:488-489): the text is written into the
    buffer but `size` keeps the value 1 that `pkg_name_new` gave it.
  */
  function WriteText(n: PkgName, s: seq<char>): (r: PkgName)
    requires IsCName(s)
    ensures Key(r) == s && r.size == n.size
  {
    CStrOfTerminated(s, []);
    assert s + ['\0'] + [] == s + ['\0'];
    PkgName(s + ['\0'], n.size)
  }

  /**
    The stale size of the default keep names (main.c:137, 488-489): "pacman" keeps size 1,
    so it is not well formed, `pkg_name_eql` compares only its first byte (it equals any
    size-1 name starting with 'p' and differs from the properly built "pacman"), while
    its text is still read correctly.
  */
  lemma StaleDefaultNames()
    ensures var pacman := WriteText(PkgName(['\0'], 1), "pacman");
            var glibc := WriteText(PkgName(['\0'], 1), "glibc");
            Sized(pacman) && Sized(glibc) && !WellFormed(pacman)
            && NameEq(pacman, PkgName(['p'], 1)) && !NameEq(pacman, MakeName("pacman"))
            && Key(pacman) == "pacman" && Key(glibc) == "glibc"
  {
  }

  /** 2^64: `unsigned long` arithmetic in `hash` wraps modulo this. */
  const HashModulus: nat := 0x1_0000_0000_0000_0000

  /** djb2 over a text: start at 5381, then hash * 33 + c for each character, modulo 2^64. */
  function HashOf(s: seq<char>): (h: nat)
    ensures h < HashModulus
  {
    if s == [] then 5381 else (HashOf(s[..|s| - 1]) * 33 + s[|s| - 1] as int) % HashModulus
  }

  /** hash (main.c:204-215): djb2 of the C string in `str`. */
  method Hash(str: seq<char>) returns (h: nat)
    ensures h == HashOf(CStr(str))
    ensures h < HashModulus
  {
    h := 5381;
    var i := 0;
    while i < |str| && str[i] != '\0'
      invariant i <= CLen(str)
      invariant h == HashOf(str[..i])
    {
      assert str[..i + 1][..i] == str[..i];
      h := ((h * 32) + h + str[i] as int) % HashModulus;
      i := i + 1;
    }
  }
}

=== FILE: upgrades.dfy ===
/**
  The upgrade candidates (main.c:17-81, 541-568): every installed package that has a
  newer version and is not protected by the dependency set becomes a `pkg_state_t` in a
  growable list, which is then sorted by installed size, largest first.
*/
module Upgrades {
  import opened Options
  import opened CStrings
  import opened PkgNames
  import opened NameSets

  /**
    An `alpm_pkg_t` as this program reads it: its name, its installed size
    (`alpm_pkg_get_isize`) and its description (`alpm_pkg_get_desc`).
  */
  datatype Pkg = Pkg(name: seq<char>, isize: nat, desc: seq<char>)

  /** `pkg_state_t` (main.c:17-21): a package to upgrade and whether the user picked it. */
  datatype PkgState = PkgState(pkg: Pkg, isSelected: bool)

  /** `pkg_state_list_t` (main.c:23-28). */
  class PkgStateList {
    var ary: array<PkgState>
    var size: nat
    var capacity: nat
    ghost var Repr: set<object>

    ghost predicate Valid()
      reads this, Repr
    {
      Repr == {this, ary} && ary.Length == capacity && 1 <= capacity && size <= capacity
    }

    /** The states currently in the list, in order. */
    ghost function Contents(): seq<PkgState>
      reads this, ary
      requires size <= ary.Length
    {
      ary[..size]
    }

    /** pkg_state_list_new (main.c:42-49). */
    constructor (initialCapacity: nat)
      requires 1 <= initialCapacity
      ensures Valid() && fresh(Repr)
      ensures capacity == initialCapacity && Contents() == []
    {
      ary := new PkgState[initialCapacity](_ => PkgState(Pkg([], 0, []), false));
      size := 0;
      capacity := initialCapacity;
      Repr := {this, ary};
    }

    /**
      pkg_state_list_add_pkg (main.c:29-40): doubles the capacity when the list is full,
      then appends the package, not selected.
    */
    method AddPkg(p: Pkg)
      requires Valid()
      modifies Repr
      ensures Valid() && fresh(Repr - old(Repr))
      ensures Contents() == old(Contents()) + [PkgState(p, false)]
      ensures capacity == if old(size) >= old(capacity) then 2 * old(capacity) else old(capacity)
    {
      if size >= capacity {
        capacity := capacity * 2;
        var grown := new PkgState[capacity](_ => PkgState(p, false));
        forall i | 0 <= i < ary.Length {
          grown[i] := ary[i];
        }
        assert grown[..size] == ary[..size];
        ary := grown;
        Repr := {this, ary};
      }
      ary[size] := PkgState(p, false);
      size := size + 1;
    }
  }

  /**
    compare_pkg_states (main.c:72-81): the second installed size minus the first, so a
    larger package sorts earlier.
  */
  function ComparePkgStates(a: PkgState, b: PkgState): (r: int)
    ensures r < 0 <==> a.pkg.isize > b.pkg.isize
    ensures r == 0 <==> a.pkg.isize == b.pkg.isize
    ensures r > 0 <==> a.pkg.isize < b.pkg.isize
  {
    b.pkg.isize - a.pkg.isize
  }

  /** The comparator is a total preorder, as `qsort` requires of it. */
  lemma CompareIsTotalPreorder(a: PkgState, b: PkgState, c: PkgState)
    ensures ComparePkgStates(a, b) <= 0 || ComparePkgStates(b, a) <= 0
    ensures ComparePkgStates(a, b) < 0 <==> ComparePkgStates(b, a) > 0
    ensures ComparePkgStates(a, b) <= 0 && ComparePkgStates(b, c) <= 0 ==> ComparePkgStates(a, c) <= 0
  {
  }

  /** Largest installed size first: the order `compare_pkg_states` asks `qsort` for. */
  predicate SortedBySize(s: seq<PkgState>)
  {
    forall i, j :: 0 <= i < j < |s| ==> s[i].pkg.isize >= s[j].pkg.isize
  }

  /** Sorted by size is exactly sorted under the comparator. */
  lemma SortedIsComparatorOrder(s: seq<PkgState>)
    ensures SortedBySize(s) <==> forall i, j :: 0 <= i < j < |s| ==> ComparePkgStates(s[i], s[j]) <= 0
  {
  }

  /** Places `x` before the first element it does not sort after. */
  function Insert(x: PkgState, s: seq<PkgState>): seq<PkgState>
  {
    if s == [] || ComparePkgStates(x, s[0]) <= 0 then [x] + s
    else [s[0]] + Insert(x, s[1..])
  }

  /** An ordering `qsort` may produce: insertion sort under `compare_pkg_states`. */
  function SortBySizeSpec(s: seq<PkgState>): seq<PkgState>
  {
    if s == [] then [] else Insert(s[0], SortBySizeSpec(s[1..]))
  }

  /** No installed size in `s` exceeds `b`. */
  predicate AtMost(s: seq<PkgState>, b: nat)
  {
    forall k :: 0 <= k < |s| ==> s[k].pkg.isize <= b
  }

  lemma {:induction false} InsertAtMost(x: PkgState, s: seq<PkgState>, b: nat)
    requires AtMost(s, b) && x.pkg.isize <= b
    ensures AtMost(Insert(x, s), b)
  {
    if !(s == [] || ComparePkgStates(x, s[0]) <= 0) {
      InsertAtMost(x, s[1..], b);
    }
  }

  lemma {:induction false} InsertPermutes(x: PkgState, s: seq<PkgState>)
    ensures multiset(Insert(x, s)) == multiset(s) + multiset{x}
  {
    if !(s == [] || ComparePkgStates(x, s[0]) <= 0) {
      InsertPermutes(x, s[1..]);
      assert s == [s[0]] + s[1..];
    }
  }

  lemma {:induction false} InsertSorted(x: PkgState, s: seq<PkgState>)
    requires SortedBySize(s)
    ensures SortedBySize(Insert(x, s))
  {
    if s == [] || ComparePkgStates(x, s[0]) <= 0 {
      var r := [x] + s;
      assert forall j :: 1 <= j < |r| ==> r[j] == s[j - 1];
    } else {
      var t := s[1..];
      assert forall k :: 0 <= k < |t| ==> t[k] == s[k + 1];
      InsertSorted(x, t);
      InsertAtMost(x, t, s[0].pkg.isize);
      var u := Insert(x, t);
      var r := [s[0]] + u;
      assert forall j :: 1 <= j < |r| ==> r[j] == u[j - 1];
    }
  }

  /** The specification ordering is sorted and a permutation of its input. */
  lemma {:induction false} SortBySizeSpecCorrect(s: seq<PkgState>)
    ensures SortedBySize(SortBySizeSpec(s))
    ensures multiset(SortBySizeSpec(s)) == multiset(s)
  {
    if s != [] {
      SortBySizeSpecCorrect(s[1..]);
      InsertSorted(s[0], SortBySizeSpec(s[1..]));
      InsertPermutes(s[0], SortBySizeSpec(s[1..]));
      assert s == [s[0]] + s[1..];
    }
  }

  /**
    qsort(upgrade_list->ary, upgrade_list->size, ..., compare_pkg_states) (main.c:568):
    the first `size` states are rearranged, largest installed size first.
  */
  method SortBySize(list: PkgStateList)
    requires list.Valid()
    modifies list.ary
    ensures list.Valid()
    ensures list.Contents() == SortBySizeSpec(old(list.Contents()))
    ensures SortedBySize(list.Contents())
    ensures multiset(list.Contents()) == multiset(old(list.Contents()))
  {
    var sorted := SortBySizeSpec(list.ary[..list.size]);
    SortBySizeSpecCorrect(list.ary[..list.size]);
    assert |sorted| == list.size by {
      assert |multiset(sorted)| == |multiset(list.ary[..list.size])|;
    }
    forall i | 0 <= i < list.size {
      list.ary[i] := sorted[i];
    }
    assert list.ary[..list.size] == sorted;
  }

  /**
    What the candidate loop (main.c:545-563) keeps of one installed package: its new
    version, unselected, when there is one and the package's name is not protected.
  */
  function Candidate(p: Pkg, newVersion: Pkg -> Option<Pkg>, protected: set<seq<char>>): seq<PkgState>
  {
    match newVersion(p)
    case None => []
    case Some(nv) => if p.name in protected then [] else [PkgState(nv, false)]
  }

  /** The candidates from a list of installed packages, in list order. */
  function Candidates(installed: seq<Pkg>, newVersion: Pkg -> Option<Pkg>,
                      protected: set<seq<char>>): seq<PkgState>
  {
    if installed == [] then []
    else
      var n := |installed| - 1;
      Candidates(installed[..n], newVersion, protected) + Candidate(installed[n], newVersion, protected)
  }

  /**
    The candidate loop (main.c:545-563): a fresh list of capacity 5, then each installed
    package's name is looked up in the dependency set.
  */
  method CollectCandidates(installed: seq<Pkg>, newVersion: Pkg -> Option<Pkg>, deps: NameSet)
    returns (list: PkgStateList)
    requires deps.Valid()
    requires forall p :: p in installed ==> IsCName(p.name)
    ensures list.Valid() && fresh(list.Repr)
    ensures list.Contents() == Candidates(installed, newVersion, deps.keys)
  {
    list := new PkgStateList(5);
    for i := 0 to |installed|
      invariant list.Valid() && fresh(list.Repr)
      invariant list.Contents() == Candidates(installed[..i], newVersion, deps.keys)
    {
      assert installed[..i + 1][..i] == installed[..i];
      var package := installed[i];
      var next := newVersion(package);
      if next.Some? {
        assert package in installed;
        var pkgName := MakeName(package.name);
        var has := deps.Has(pkgName);
        FindsIffKey(deps.items[..], pkgName);
        if !has {
          list.AddPkg(next.value);
        }
      }
    }
    assert installed[..|installed|] == installed;
  }

  /**
    Every candidate is the unselected new version of some installed package whose name is
    not protected.
  */
  lemma {:induction false} CandidatesSound(installed: seq<Pkg>, newVersion: Pkg -> Option<Pkg>,
                                           protected: set<seq<char>>, k: nat)
    requires k < |Candidates(installed, newVersion, protected)|
    ensures var c := Candidates(installed, newVersion, protected)[k];
            !c.isSelected &&
            exists p :: p in installed && p.name !in protected && newVersion(p) == Some(c.pkg)
  {
    var n := |installed| - 1;
    var front := Candidates(installed[..n], newVersion, protected);
    var c := Candidates(installed, newVersion, protected)[k];
    if k < |front| {
      CandidatesSound(installed[..n], newVersion, protected, k);
      var p :| p in installed[..n] && p.name !in protected && newVersion(p) == Some(c.pkg);
      assert p in installed;
    } else {
      assert installed[n] in installed;
    }
  }

  /**
    Every installed package with a new version and an unprotected name contributes its
    new version, unselected.
  */
  lemma {:induction false} CandidatesComplete(installed: seq<Pkg>, newVersion: Pkg -> Option<Pkg>,
                                              protected: set<seq<char>>, i: nat)
    requires i < |installed| && newVersion(installed[i]).Some?
    requires installed[i].name !in protected
    ensures PkgState(newVersion(installed[i]).value, false) in Candidates(installed, newVersion, protected)
  {
    var n := |installed| - 1;
    if i < n {
      assert installed[..n][i] == installed[i];
      CandidatesComplete(installed[..n], newVersion, protected, i);
    }
  }

  /**
    Each installed package yields at most one candidate, and when every installed package
    is protected there are none at all.
  */
  lemma {:induction false} ProtectedExcluded(installed: seq<Pkg>, newVersion: Pkg -> Option<Pkg>,
                                             protected: set<seq<char>>)
    ensures |Candidates(installed, newVersion, protected)| <= |installed|
    ensures (forall p :: p in installed ==> p.name in protected) ==>
              Candidates(installed, newVersion, protected) == []
  {
    if installed != [] {
      ProtectedExcluded(installed[..|installed| - 1], newVersion, protected);
      assert installed[|installed| - 1] in installed;
      assert forall p :: p in installed[..|installed| - 1] ==> p in installed;
    }
  }
}

=== FILE: wrap.dfy ===
/**
  The description panel (main.c:150-183, 631-647): `read_word` cuts the description of the
  highlighted package into words through an 80-character buffer, and the panel places
  them left to right in the right half of the screen, starting a new row when a word
  does not fit.
*/
module DescriptionWrap {

  /** The size of the word buffer the panel hands to `read_word` (main.c:638-640). */
  const WordBufSize := 80

  /** A C string seen from a pointer: `s[pos..]` is the text and `s` ends with its NUL. */
  predicate Terminated(s: seq<char>, pos: nat)
  {
    pos < |s| && s[|s| - 1] == '\0'
  }

  /** Where the word starting at `pos` ends: the first space or NUL at or after `pos`. */
  function StopAt(s: seq<char>, pos: nat): (j: nat)
    requires Terminated(s, pos)
    ensures pos <= j < |s| && (s[j] == ' ' || s[j] == '\0')
    ensures forall i :: pos <= i < j ==> s[i] != ' ' && s[i] != '\0'
    decreases |s| - pos
  {
    if s[pos] == ' ' || s[pos] == '\0' then pos else StopAt(s, pos + 1)
  }

  /**
    One call of `read_word`: the text the buffer ends up holding, the count it returns and
    where the pointer is left.
  */
  datatype Word = Word(text: seq<char>, count: nat, next: nat)

  /**
    What `read_word` does with a buffer of `capacity` characters: a word that fits is copied
    with its terminating space or NUL counted, and a space is stepped over; a longer word
    fills the buffer, whose last character is then overwritten by NUL.
  */
  function ReadWordSpec(s: seq<char>, pos: nat, capacity: nat): (w: Word)
    requires Terminated(s, pos) && 1 <= capacity
    ensures 1 <= w.count <= capacity && |w.text| == w.count - 1
    ensures pos <= w.next < |s| && pos + |w.text| < |s|
    ensures s[pos] != '\0' ==> pos < w.next
    ensures w.text == s[pos..pos + |w.text|]
    ensures ' ' !in w.text && '\0' !in w.text
  {
    var j := StopAt(s, pos);
    if j - pos < capacity then
      Word(s[pos..j], j - pos + 1, if s[j] == ' ' then j + 1 else j)
    else
      Word(s[pos..pos + capacity - 1], capacity, pos + capacity)
  }

  /**
    read_word (main.c:150-183): copies characters from `s[pos..]` into `buf` until a space,
    the NUL or a full buffer, terminates the buffer and returns how many it copied.
  */
  method ReadWord(s: seq<char>, pos: nat, buf: array<char>, capacity: nat) returns (count: nat, next: nat)
    requires Terminated(s, pos) && 1 <= capacity == buf.Length
    modifies buf
    ensures var w := ReadWordSpec(s, pos, capacity);
            count == w.count && next == w.next && buf[..count] == w.text + ['\0']
  {
    ghost var j := StopAt(s, pos);
    var idx := 0;
    next := pos;
    while true
      invariant idx < capacity && next == pos + idx && next <= j
      invariant buf[..idx] == s[pos..next]
      decreases capacity - idx
    {
      buf[idx] := s[next];
      idx := idx + 1;
      if s[next] == ' ' {
        next := next + 1;
        break;
      }
      if s[next] == '\0' {
        break;
      }
      next := next + 1;
      if idx >= capacity {
        buf[capacity - 1] := '\0';
        break;
      }
      assert buf[..idx] == s[pos..next];
    }
    buf[idx - 1] := '\0';
    count := idx;
  }

  /** A word that fits comes back whole, followed by the space that ended it, if any. */
  lemma ShortWordRoundTrip(s: seq<char>, pos: nat, capacity: nat)
    requires Terminated(s, pos) && 1 <= capacity && StopAt(s, pos) - pos < capacity
    ensures var w := ReadWordSpec(s, pos, capacity);
            var j := StopAt(s, pos);
            w.text == s[pos..j] &&
            s[pos..w.next] == w.text + (if s[j] == ' ' then " " else "")
  {
    var j := StopAt(s, pos);
    if s[j] == ' ' {
      assert s[pos..j + 1] == s[pos..j] + [s[j]];
    }
  }

  /**
    A word of `capacity` characters or more loses one character: the pointer moves past
    `capacity` characters, but only `capacity - 1` of them reach the buffer, and the
    next call starts after the lost one.
  */
  lemma LongWordLosesOne(s: seq<char>, pos: nat, capacity: nat)
    requires Terminated(s, pos) && 1 <= capacity && StopAt(s, pos) - pos >= capacity
    ensures var w := ReadWordSpec(s, pos, capacity);
            w.next == pos + capacity && w.count == capacity &&
            s[pos..w.next] == w.text + [s[pos + capacity - 1]] &&
            s[pos + capacity - 1] != ' ' && s[pos + capacity - 1] != '\0'
  {
    assert s[pos..pos + capacity] == s[pos..pos + capacity - 1] + [s[pos + capacity - 1]];
  }

  /** Concretely: with a 3-character buffer "abcd" is read as "ab", and "c" is skipped. */
  lemma LostCharacterExample()
    ensures ReadWordSpec("abcd\0", 0, 3) == Word("ab", 3, 3)
    ensures ReadWordSpec("abcd\0", 3, 3) == Word("d", 2, 4)
  {
    assert StopAt("abcd\0", 3) == 4;
    assert StopAt("abcd\0", 0) == 4;
  }

  /** Where `write_str` puts one word: column, row and the text. */
  datatype Placement = Placement(x: int, y: nat, text: seq<char>)

  /**
    The cursor rule of main.c:639-643: a word whose count would take the cursor past the
    right edge goes to the middle column of the next row. The word stays on its row
    exactly when it fits there, and a word no wider than the right half always fits.
  */
  function WrapCursor(x: int, y: nat, count: nat, width: nat): (c: (int, nat))
    ensures c.1 == y || (c.1 == y + 1 && c.0 == width / 2)
    ensures c.1 == y <==> x + count <= width
    ensures c.1 == y ==> c.0 == x
    ensures count <= width - width / 2 ==> c.0 + count <= width
  {
    if x + count > width then (width / 2, y + 1) else (x, y)
  }

  /**
    The layout the panel loop (main.c:632-647) produces from pointer `pos` and cursor
    (`x`, `y`) on a screen `width` columns wide.
  */
  function Layout(s: seq<char>, pos: nat, x: int, y: nat, width: nat): seq<Placement>
    requires Terminated(s, pos)
    decreases |s| - pos
  {
    if s[pos] == '\0' then []
    else
      var w := ReadWordSpec(s, pos, WordBufSize);
      var c := WrapCursor(x, y, w.count, width);
      [Placement(c.0, c.1, w.text)] + Layout(s, w.next, c.0 + w.count, c.1, width)
  }

  /** One step of `Layout`, with the names the lemmas about it use. */
  lemma LayoutStep(s: seq<char>, pos: nat, x: int, y: nat, width: nat)
    requires Terminated(s, pos) && s[pos] != '\0'
    ensures var w := ReadWordSpec(s, pos, WordBufSize);
            var c := WrapCursor(x, y, w.count, width);
            Layout(s, pos, x, y, width)
              == [Placement(c.0, c.1, w.text)] + Layout(s, w.next, c.0 + w.count, c.1, width)
  {
  }

  /**
    The panel loop (main.c:632-647): read a word, move to the start of the next row when it
    would pass the right edge, write it and advance the cursor by the count.
  */
  method LayoutDescription(desc: seq<char>, width: nat) returns (placed: seq<Placement>)
    requires Terminated(desc, 0)
    ensures placed == Layout(desc, 0, width / 2, 0, width)
  {
    var pos := 0;
    var cursX: int := width / 2;
    var cursY: nat := 0;
    placed := [];
    while desc[pos] != '\0'
      invariant Terminated(desc, pos)
      invariant placed + Layout(desc, pos, cursX, cursY, width) == Layout(desc, 0, width / 2, 0, width)
      decreases |desc| - pos
    {
      var here, next, x, y := PlaceWord(desc, pos, cursX, cursY, width);
      assert placed + ([here] + Layout(desc, next, x, y, width))
          == (placed + [here]) + Layout(desc, next, x, y, width);
      placed := placed + [here];
      pos, cursX, cursY := next, x, y;
    }
  }

  /**
    One round of the panel loop (main.c:636-645): the word read into a fresh 80-character
    buffer, where it is written, and the pointer and cursor afterwards.
  */
  method PlaceWord(desc: seq<char>, pos: nat, cursX: int, cursY: nat, width: nat)
    returns (here: Placement, next: nat, x: int, y: nat)
    requires Terminated(desc, pos)
    ensures var w := ReadWordSpec(desc, pos, WordBufSize);
            var c := WrapCursor(cursX, cursY, w.count, width);
            here == Placement(c.0, c.1, w.text) && next == w.next && x == c.0 + w.count && y == c.1
    ensures desc[pos] != '\0' ==>
              Terminated(desc, next) &&
              Layout(desc, pos, cursX, cursY, width) == [here] + Layout(desc, next, x, y, width)
  {
    var buf := new char[WordBufSize];
    var charsRead;
    charsRead, next := ReadWord(desc, pos, buf, WordBufSize);
    x, y := cursX, cursY;
    if x + charsRead > width {
      x := width / 2;
      y := y + 1;
    }
    here := Placement(x, y, buf[..charsRead - 1]);
    x := x + charsRead;
    if desc[pos] != '\0' {
      LayoutStep(desc, pos, cursX, cursY, width);
    }
  }

  /**
    Consecutive words either sit on the same row separated by one column, or the second
    starts a new row at the middle of the screen.
  */
  lemma {:induction false} LayoutRows(s: seq<char>, pos: nat, x: int, y: nat, width: nat, i: nat)
    requires Terminated(s, pos) && i + 1 < |Layout(s, pos, x, y, width)|
    ensures var l := Layout(s, pos, x, y, width);
            (l[i + 1].y == l[i].y && l[i + 1].x == l[i].x + |l[i].text| + 1) ||
            (l[i + 1].y == l[i].y + 1 && l[i + 1].x == width / 2)
    decreases |s| - pos
  {
    var w := ReadWordSpec(s, pos, WordBufSize);
    var c := WrapCursor(x, y, w.count, width);
    LayoutStep(s, pos, x, y, width);
    var rest := Layout(s, w.next, c.0 + w.count, c.1, width);
    if i > 0 {
      LayoutRows(s, w.next, c.0 + w.count, c.1, width, i - 1);
    } else {
      var w2 := ReadWordSpec(s, w.next, WordBufSize);
      LayoutStep(s, w.next, c.0 + w.count, c.1, width);
      var c2 := WrapCursor(c.0 + w.count, c.1, w2.count, width);
      assert rest[0] == Placement(c2.0, c2.1, w2.text);
    }
  }

  /**
    On a screen whose right half holds a full buffer, every word starting from a cursor in
    the right half is written inside the right half.
  */
  lemma {:induction false} LayoutFits(s: seq<char>, pos: nat, x: int, y: nat, width: nat)
    requires Terminated(s, pos) && WordBufSize <= width - width / 2 && width / 2 <= x <= width
    ensures forall p :: p in Layout(s, pos, x, y, width) ==> width / 2 <= p.x && p.x + |p.text| < width
    decreases |s| - pos
  {
    if s[pos] != '\0' {
      var w := ReadWordSpec(s, pos, WordBufSize);
      var c := WrapCursor(x, y, w.count, width);
      LayoutStep(s, pos, x, y, width);
      LayoutFits(s, w.next, c.0 + w.count, c.1, width);
    }
  }
}
